=== FILE: README.md ===
# firetower: wire codec, TCP client, bucketing hook and manager backoff

A Dafny model of the core of the firetower publish/subscribe gateway:

- **The binary wire codec** (`Protocol`, with its properties in
  `ProtocolProps` and `DepackProps`). A frame is the header "FireHeader", a
  4-byte big-endian int32 body length and the body
  `type SP id SP source SP topic LF content`. `Enpack` builds one frame.
  `Depack` scans a byte buffer and sends the message of every complete frame
  to the reader channel, modelled as an emitted sequence. It moves on one byte
  at a time over garbage and returns the unconsumed suffix, which is the half
  packet carried into the next read. The buffered reader Depack wraps around
  each body is modelled too: `ReadLine` with its 4096-byte buffer and its
  carriage-return handling, then one `Read` of the content.
- **The TCP client** (`Socket.TcpClient`). It holds the closed and
  manual-close flags, the connection and close signal of each successful dial,
  and the `readIn` and `sendOut` channels of capacity 1024 as sequences. Its
  operations are `NewClient`, `Connect`, `Close` (with its reconnect loop),
  `Shutdown`, `Read` (which passes over heartbeats), `send` and `Publish`. One
  turn of each goroutine `Connect` starts is a method of its own: `Receive`
  for the read loop, which calls `Depack`, and `TakeOutbound` for the send
  loop.
- **The hot-topic bucketing hook** (`Bucketing`). The topic "live_stream" is
  redirected to "live_stream_<n>", where n is the 32-bit FNV-1a hash of the
  user id modulo 100. Every other topic passes through.
- **The manager client's connection routine** (`ManagerClient`). It dials
  gRPC, creates the TCP client, registers the push handler and connects the
  TCP client. Each phase retries with a sleep that starts at 1 s, doubles
  after each failure and is clamped at 30 s. The sleep is reset to 1 s
  between the two phases.

Go strings are byte strings, so they are modelled as `seq<byte>`. A nil
content slice is `None`. Dials, and the bytes the read loop receives, are
parameters: a dial phase is given as the number of failures before the first
success.

Four behaviours of the code that the model keeps:

- A header that declares a negative length is not skipped. The slice at
  socket/protocol.go:71 panics, and the model returns `Panicked` with the
  messages already sent.
- `Close` waits a fixed one second between reconnect attempts
  (socket/socket.go:182). It does not double the wait.
- A message's data is the fifth parameter. That is the line's fifth token
  when the line has one, and the content only when the line has exactly four
  tokens (socket/protocol.go:140-143).
- When a body is longer than the reader's 4096-byte buffer and its newline
  lies before the last byte of the first window, the content is cut at the
  end of that window. The `Read` at socket/protocol.go:91 returns only the
  bytes already buffered, although the comment at :96-98 expects it to
  return them all. When the newline is the window's last byte, nothing is
  buffered and the `Read` returns the whole content.

## Model

| member | source | states |
|---|---|---|
| Protocol.HeaderIsFireHeader | socket/protocol.go:12-18 | the header constant is the ten ASCII bytes of "FireHeader" |
| Protocol.ToInt32 | socket/protocol.go:164 | int32(n) lies in the int32 range and differs from n by a multiple of 2^32 |
| Protocol.IntToBytes | socket/protocol.go:163-169 | always four bytes, whose big-endian value is n modulo 2^32 (two's complement of int32(n)) |
| Protocol.BytesToInt | socket/protocol.go:172-179 | an int32; zero when fewer than four bytes are given (the failed read leaves x at zero); otherwise congruent modulo 2^32 to the big-endian value of the first four bytes |
| Protocol.Enpack | socket/protocol.go:25-47 | fails with "type is empty", "topic is empty", "content is empty" in that order of checks; succeeds exactly when type and topic are non-empty and content is not nil, with the header, then the body length, then the body with its fields in fixed order |
| Protocol.IndexOf | socket/protocol.go:90 | the first position of the separator; none exactly when it does not occur |
| Protocol.SplitOn | socket/protocol.go:90 | bytes.Split gives at least one piece and no piece holds the separator |
| Protocol.ReadLineThenContent | socket/protocol.go:81-95 | ReadLine reports EOF exactly for an empty body; a newline-free body shorter than the buffer is one line with no content after it |
| Protocol.DropCarriageReturn | socket/protocol.go:81 | ReadLine drops a carriage return that ends the line and nothing else: the result is the line minus one final "\r", or the line itself when it does not end in one |
| Protocol.ParseFrame | socket/protocol.go:81-145 | a body gives a message exactly when it is non-empty and its line splits into at least four tokens |
| Protocol.MatchesAtSlice | socket/protocol.go:63 | the byte-by-byte window comparison is equality of the window with the pattern |
| Protocol.HeaderAtSlice | socket/protocol.go:63 | a header starts at i exactly when buffer[i:i+10] is "FireHeader" |
| Protocol.ScanFrom | socket/protocol.go:56-159 | the reference definition of Depack's scan, one branch per case of the loop body; it has no contract of its own, and its properties are ScanStops, ScanPanics, ScanSkipsByte, ScanTakesFrame and the DepackProps lemmas |
| Protocol.ScanStops | socket/protocol.go:59-68 | with fewer than 14 bytes left, or at a header whose body runs past the end, the scan stops and leaves buffer[i:], starting at that header |
| Protocol.ScanPanics | socket/protocol.go:64-77 | a header declaring a negative length inside the buffer ends the scan in a panic |
| Protocol.ScanSkipsByte | socket/protocol.go:149-153 | where no header starts, the scan moves on exactly one byte and takes nothing |
| Protocol.ScanTakesFrame | socket/protocol.go:63-148 | at a complete frame the scan takes its body and goes on 14 + declared length bytes later |
| Protocol.ScanWithStops | socket/protocol.go:59-68 | the loop's scan stops with the bodies taken so far and the leftover buffer[i:] |
| Protocol.ScanWithPanics | socket/protocol.go:64-77 | the loop's scan panics with the bodies taken so far at a negative length |
| Protocol.ScanWithSkipsByte | socket/protocol.go:149-153 | the loop's scan moves one byte over a non-header |
| Protocol.ScanWithTakesFrame | socket/protocol.go:140-148 | the loop's scan appends a complete frame's body and advances past the frame |
| Protocol.ScanWithAfter | socket/protocol.go:56-154 | the scan that carries the bodies taken so far is the scan from i with those bodies in front |
| Protocol.Messages | socket/protocol.go:140-145 | the messages of the bodies taken, in order; no contract of its own, characterised by MessagesSnoc, MessagesOne and MessagesAppend |
| Protocol.DepackOf | socket/protocol.go:50-160 | the reference outcome of Depack on a whole buffer; no contract of its own, and Depack is proved equal to it, with EnpackDepack, TwoPackets, PacketThenHalfPacket, DepackLeftover and DepackSkipsGarbage stating what it does |
| Protocol.MessagesSnoc | socket/protocol.go:140-145 | one more body adds the message it parses to, or nothing |
| Protocol.EmitFrame | socket/protocol.go:72-145 | after one complete body the messages sent are those of the earlier bodies followed by this body's message, if any |
| Protocol.Depack | socket/protocol.go:50-160 | returns the messages of the complete frames the scan takes, in order, and the leftover: the suffix where the scan stopped, empty when it reached the end; or the panic after the messages already sent |
| ProtocolProps.BigEndianDigits | socket/protocol.go:167 | a 4-byte big-endian value is below 2^32 and gives back each of its bytes |
| ProtocolProps.BigEndianInjective | socket/protocol.go:172-179 | two length fields with the same value are the same bytes |
| ProtocolProps.ToInt32InRange | socket/protocol.go:164 | int32(n) is n for every n in the int32 range |
| ProtocolProps.ToInt32Mod | socket/protocol.go:164 | int32(n) depends only on n modulo 2^32 |
| ProtocolProps.IntRoundTrip | socket/protocol_more_test.go:5-17 | BytesToInt(IntToBytes(n)) is int32(n), which is n for every n in the int32 range |
| ProtocolProps.BytesRoundTrip | socket/protocol.go:163-179 | IntToBytes(BytesToInt(b)) gives back the first four bytes of b |
| ProtocolProps.IndexOfAfter | socket/protocol.go:90 | the first separator of a + sep + b, with no separator in a, is at position len(a) |
| ProtocolProps.SplitOnCons | socket/protocol.go:90 | splitting at a first separator gives its prefix, then the pieces of the rest |
| ProtocolProps.SplitOnNone | socket/protocol.go:90 | a string without the separator is one piece |
| ProtocolProps.SplitJoin | socket/protocol.go:90 | joining the pieces with the separator gives back the string |
| ProtocolProps.SplitTwo | socket/protocol.go:90 | two space-free strings joined by a space split back into those two |
| ProtocolProps.SplitFieldLineTopic | socket/protocol.go:37-43 | a field line splits into type, id and source, then the pieces of the topic |
| ProtocolProps.SplitFieldLine | socket/protocol.go:37-43 | a line of four space-free fields splits into exactly those four |
| ProtocolProps.SplitSpacedFieldLine | socket/protocol.go:37-43 | a topic holding one space makes the line split into five pieces |
| ProtocolProps.SplitOnCount | socket/protocol.go:90 | bytes.Split gives one more piece than there are separators |
| ProtocolProps.ReadLineInWindow | socket/protocol.go:81-91 | where the reader's first window holds a newline, the line is the window up to it without a final "\r", and the content is the rest of the window or else the bytes after the window |
| ProtocolProps.ReadLineAt | socket/protocol.go:81-91 | in a body that fits the reader, the line ends at the first newline, a carriage return before it dropped, and the content is all that follows |
| ProtocolProps.ReadLineOfBody | socket/protocol.go:81-91 | a plain line, a newline and content that fit the reader read back as that line and that content |
| ProtocolProps.ContentCutAtWindow | socket/protocol.go:81-98 | in a body longer than 4096 bytes whose newline lies before the last byte of the first window, the line comes back whole and the content is only the body's bytes up to position 4096 |
| ProtocolProps.ContentAfterFullWindow | socket/protocol.go:81-91 | when the newline is the last byte of the first 4096-byte window, the line comes back whole and the content is all the bytes after it |
| ProtocolProps.FieldLinePlain | socket/protocol.go:37-44 | a field line is plain when its fields hold no newline and the topic does not end in a carriage return |
| ProtocolProps.ParseOfLine | socket/protocol.go:100-145 | a line of at least four tokens gives the message of the first four, with the fifth token as data, or the content when there is none |
| ProtocolProps.ParseBodyRoundTrip | socket/protocol.go:81-145 | the body Enpack builds from space- and newline-free fields parses back as the message of those fields, content as its data |
| ProtocolProps.ParseSpacedTopic | socket/protocol.go:140-143 | a topic holding a space shifts the fields: the part after the space becomes the data and the content is dropped |
| ProtocolProps.ParseNeedsThreeSpaces | socket/protocol.go:105-145 | a body gives a message only when its line holds at least three spaces |
| DepackProps.MessagesAppend | socket/protocol.go:140-148 | the messages of two runs of bodies are those of each, in order |
| DepackProps.ScanShift | socket/protocol.go:56-154 | the scan only looks forward: scanning p + s from inside s is scanning s |
| DepackProps.ScanFrame | socket/protocol.go:63-148 | a frame at the front is taken whole, then the scan goes on with the bytes after it |
| DepackProps.DepackFrameThenRest | socket/protocol.go:50-160 | Depack of a frame and more bytes is the frame's message, if any, ahead of what the rest gives |
| DepackProps.MessagesOne | socket/protocol.go:140-145 | one body gives its message when it parses and nothing otherwise |
| DepackProps.UnparsedFrameSkipped | socket/protocol.go:81-111 | a complete frame with an empty body or a line of fewer than four tokens emits nothing and is passed over whole |
| DepackProps.EnpackIsFrame | socket/protocol.go:37-46 | what Enpack succeeds with is the header, the body length and the body |
| DepackProps.EnpackDepack | socket/protocol.go:113-148 | Depack of an Enpack frame followed by any bytes emits the packed message first, then what the rest gives |
| DepackProps.EnpackDepackAlone | socket/protocol.go:113-159 | one Enpack frame alone gives its message and an empty leftover |
| DepackProps.TwoPackets | socket/protocol_test.go:16-40 | two frames back to back give both messages in order and an empty leftover |
| DepackProps.HalfFrameWaits | socket/protocol.go:64-68 | a frame cut anywhere after its length field emits nothing and is kept whole as the leftover |
| DepackProps.BodyLength | socket/protocol.go:26-45 | a body Enpack builds is at least six bytes |
| DepackProps.PacketThenHalfPacket | socket/protocol_test.go:56-78 | a frame followed by a frame missing its last two bytes gives the first message, and the leftover is exactly the truncated frame |
| DepackProps.ScanLeftoverSuffix | socket/protocol.go:156-159 | the leftover is the buffer from some offset on |
| DepackProps.ScanLeftoverUnfinished | socket/protocol.go:59-68 | the leftover is shorter than 14 bytes or starts at a header whose body runs past the end |
| DepackProps.DepackLeftover | socket/protocol.go:156-159 | Depack's leftover is a suffix of its input that is too short or an incomplete frame, so no complete frame is dropped |
| DepackProps.SkipGarbage | socket/protocol.go:149-153 | bytes in which no header starts are skipped one at a time |
| DepackProps.DepackSkipsGarbage | socket/protocol.go:149-153 | garbage ahead of a buffer changes nothing Depack emits or leaves |
| DepackProps.NegativeLengthPanics | socket/protocol.go:64-77 | a header declaring a negative length panics Depack before anything is emitted |
| Socket.HeartbeatIsAscii | socket/socket.go:212 | the heartbeat kind is the ASCII bytes of "heartbeat" |
| Socket.SkipHeartbeats | socket/socket.go:210-216 | the queue after the heartbeats at its head: a suffix whose first message is not a heartbeat, everything dropped being a heartbeat |
| Socket.FixedWaits | socket/socket.go:178-184 | one wait per failed dial, each of one second |
| Socket.TcpClient.Valid | socket/socket.go:24-33 | the invariant every method keeps: both queues within their capacity of 1024, connection and close signal installed together by the latest dial, and an open client's close signal not yet closed, so Close never closes a channel twice |
| Socket.TcpClient.constructor | socket/socket.go:85-92 | a new client is open, not connected, with the given address and both queues empty |
| Socket.TcpClient.Connect | socket/socket.go:95-103 | a failed dial returns the error and changes nothing; a successful one opens the client with a fresh connection and close signal |
| Socket.TcpClient.Close | socket/socket.go:161-189 | a no-op on a closed client; otherwise closes the connection and close signal once, then stays closed after Shutdown or reconnects after one-second waits; unless it reconnects, the read loop's half packet and state and the dial count are untouched |
| Socket.TcpClient.Shutdown | socket/socket.go:192-203 | sets the manual-close and closed flags and closes the connection if there is one |
| Socket.TcpClient.Read | socket/socket.go:206-217 | ErrorClose on a closed client; otherwise the first queued message that is not a heartbeat, the heartbeats ahead of it consumed |
| Socket.TcpClient.Send | socket/socket.go:219-236 | ErrorClose on a closed client; the frame queued at the back when there is room; ErrorBlock with nothing queued when the queue is full |
| Socket.TcpClient.Publish | socket/socket.go:239-245 | Enpack's error with nothing queued, or the result of send on Enpack("publish", id, source, topic, data) |
| Socket.TcpClient.Receive | socket/socket.go:131-145 | one read turn appends Depack's messages to readIn and keeps its leftover as the next half packet; a panic stops the loop; a turn reads from an open connection |
| Socket.TcpClient.TakeOutbound | socket/socket.go:110-115 | the send loop, which runs only once a dial has succeeded, takes the oldest queued frame |
| Socket.ShutdownThenClose | socket/socket.go:161-203 | after Shutdown, Close does nothing and never reconnects |
| Bucketing.FnvStep | example/bucketing_demo.go:73-77 | one FNV-1a step: xor with the byte, then multiply by the prime modulo 2^32; no contract of its own, see HashSnoc |
| Bucketing.FnvFrom | example/bucketing_demo.go:73-77 | the fold of FnvStep over the bytes written; no contract of its own, see FnvFromAppend |
| Bucketing.Hash | example/bucketing_demo.go:73-77 | hash(s): FNV-1a from the offset basis; no contract of its own, see HashSnoc and HashVectors |
| Bucketing.FnvFromAppend | example/bucketing_demo.go:73-77 | hashing in two writes is hashing the concatenation |
| Bucketing.HashSnoc | example/bucketing_demo.go:73-77 | one more byte is one more FNV-1a step: xor, then multiply by the prime modulo 2^32 |
| Bucketing.HashVectors | example/bucketing_demo.go:73-77 | the FNV-1a reference values for "", "a" and "foobar" |
| Bucketing.LiveStreamIsAscii | example/bucketing_demo.go:50 | the hot topic constant is the ASCII bytes of "live_stream" |
| Bucketing.Bucket | example/bucketing_demo.go:53 | the bucket number is below 100 |
| Bucketing.Decimal | example/bucketing_demo.go:56 | %d gives a non-empty string of decimal digits |
| Bucketing.DecimalRoundTrip | example/bucketing_demo.go:56 | the digits read back as the number, with no leading zero |
| Bucketing.BucketDigits | example/bucketing_demo.go:53-56 | a bucket number takes one or two digits |
| Bucketing.RewriteTopic | example/bucketing_demo.go:49-63 | the rewrite of one topic; no contract of its own, see RewriteHotTopic and RewriteIdempotent |
| Bucketing.RewriteHotTopic | example/bucketing_demo.go:50-57 | "live_stream" becomes "live_stream_" followed by the digits of the user's bucket, a number below 100, with no leading zero |
| Bucketing.RewriteIdempotent | example/bucketing_demo.go:60-63 | other topics are returned unchanged, and a rewritten topic is never rewritten again |
| Bucketing.BeforeSubscribe | example/bucketing_demo.go:46-67 | one output topic per input topic, in order, each rewritten; the subscription is always allowed |
| ManagerClient.Pow2 | service/gateway/manager_client.go:28 | repeated doubling of one second is at least one second |
| ManagerClient.Backoff | service/gateway/manager_client.go:21-31 | the sleep after the k-th failure of a phase; no contract of its own, see BackoffStep, BackoffSchedule and BackoffBounds |
| ManagerClient.BackoffStep | service/gateway/manager_client.go:28-31 | the next sleep is twice the last, clamped to 30 seconds |
| ManagerClient.BackoffSchedule | service/gateway/manager_client.go:21-31 | the sleeps are 1, 2, 4, 8, 16, then 30 seconds for ever |
| ManagerClient.BackoffBounds | service/gateway/manager_client.go:26-31 | every sleep lasts one to thirty seconds and the schedule never shrinks |
| ManagerClient.Retries | service/gateway/manager_client.go:22-33 | every failed attempt adds two events to the trace, the attempt and its sleep |
| ManagerClient.Phase | service/gateway/manager_client.go:22-33 | a phase is its failed attempts with their sleeps, then the success |
| ManagerClient.ManagerTrace | service/gateway/manager_client.go:21-55 | the routine's events: two per failed dial of either phase, plus the two successes and the handler registration |
| ManagerClient.RetriesShape | service/gateway/manager_client.go:22-33 | the k-th failed attempt is followed by the k-th sleep of the schedule |
| ManagerClient.PhaseShape | service/gateway/manager_client.go:43-55 | in a phase, attempt k fails and sleeps the k-th sleep, and the last attempt succeeds |
| ManagerClient.PhaseStart | service/gateway/manager_client.go:42-48 | a phase opens with an attempt that succeeds only when none fails, and a first failure sleeps one second |
| ManagerClient.PhaseSleepsBounded | service/gateway/manager_client.go:47-51 | no sleep of a phase exceeds thirty seconds |
| ManagerClient.SleepsBounded | service/gateway/manager_client.go:21-52 | no sleep of the whole routine exceeds thirty seconds |
| ManagerClient.RegisterBeforeTcp | service/gateway/manager_client.go:34-44 | the push handler is registered after the gRPC dial succeeds and before any TCP connect, and the first TCP sleep is one second however many gRPC dials failed |
| ManagerClient.BuildManagerClient | service/gateway/manager_client.go:14-57 | the routine performs exactly the trace of both phases and ends with a new client, connected once, open, with empty queues |

## Left out

- The goroutines `Connect` starts are not run concurrently. `Receive` and
  `TakeOutbound` are single turns of the read and send loops. The loops'
  calls to `Close` after a failed read or write (socket/socket.go:113-121,
  136-141, 146-151) and their `recover` handlers are only what a caller may
  do in between.
- The mutex and its release while `Close` sleeps (socket/socket.go:162-184)
  are concurrency. The model's methods run one at a time.
- `net.Dial`, `Conn.Read` and `Conn.Write` are I/O. A dial is a success
  flag, or the number of failures before the first success. The bytes a read
  returns are `Receive`'s argument, and the 16 KiB read size is not modelled.
- Socket.TcpClient.Close: does not model dial sequences that never succeed,
  since the failure count is finite. Such a sequence would loop in the source
  for ever.
- ManagerClient.BuildManagerClient: likewise takes a finite number of failed
  dials per phase, and the gRPC connection it obtains is not modelled.
- `time.Sleep` and the 3-second ticker are wall-clock.
  Socket.TcpClient.Send: returns ErrorBlock exactly when the queue is full,
  and does not model a frame the send loop takes off the queue before the
  timer fires.
- Socket.TcpClient.Read: blocking on an empty queue is the outcome
  `Waiting`.
- A read that fails on a closed connection (socket/socket.go:135-140) is not
  a Receive turn. It calls Close when the client is not already marked
  closed, and ends the loop.
- Socket.TcpClient.Receive: requires room in readIn for the messages it
  sends. In the source that send blocks until Read makes room.
- `GetSendMessage`, `sync.Pool`, `StartTime` and `MessageType`
  (socket/socket.go:44-82) are pooling and a clock read. A decoded message
  is a fresh value of five byte fields.
- Log output (`fmt.Println`) is not modelled.
- `OnPush` (socket/socket.go:247-267) is a goroutine that calls Read
  repeatedly. The manager client's registration of it is the event
  `RegisterPushHandler`.
- The gRPC client, `pb.NewTopicServiceClient` and `ConfigTree` lookups in
  service/gateway/manager_client.go are foreign calls and configuration.
- The buffered reader is modelled for bodies of any size. The round-trip
  lemmas need a body of at most 4096 bytes, because a longer body loses
  bytes in two ways. A line with no newline in the first 4096 bytes comes
  back from ReadLine cut to at most those bytes. When the newline lies
  before the last byte of the first 4096-byte window, the content is cut at
  the end of that window (ContentCutAtWindow).
- Enpack bodies of 2^31 bytes or more are not covered by the round-trip
  lemmas. Their length field wraps.
- The bucket fan-out and the rest of the gateway are not part of this model.
  Neither are `main` and `Websocket` in example/bucketing_demo.go, the stress
  tools, or the stand-ins for third-party libraries.
- Bucketing.BeforeSubscribe: the user id is any byte string. The source's
  ids are decimal snowflake ids.

=== FILE: bucketing.dfy ===
/** The hot-topic sharding hook of the bucketing example: a subscription
    to "live_stream" is redirected to one of 100 bucket topics
    "live_stream_0" .. "live_stream_99", chosen by the 32-bit FNV-1a hash
    of the user id; every other topic passes through unchanged. */
module Bucketing {
  import opened Protocol

  // ---------------------------------------------------------------------
  // FNV-1a, 32 bits (section 2 of the IETF FNV draft, draft-eastlake-fnv)
  // ---------------------------------------------------------------------

  const OffsetBasis: bv32 := 2166136261
  const Prime: bv32 := 16777619

  /** One byte folded in: xor, then multiply modulo 2^32. */
  function FnvStep(h: bv32, b: byte): bv32
  {
    (h ^ (b as bv32)) * Prime
  }

  /** The hash state after writing `s` to a hasher in state `h`. */
  function FnvFrom(h: bv32, s: bytes): bv32
    decreases |s|
  {
    if s == [] then h else FnvFrom(FnvStep(h, s[0]), s[1..])
  }

  /** hash: FNV-1a of the bytes of the string. */
  function Hash(s: bytes): bv32
  {
    FnvFrom(OffsetBasis, s)
  }

  /** Writing in two parts hashes like writing once. */
  lemma {:induction false} FnvFromAppend(h: bv32, a: bytes, b: bytes)
    ensures FnvFrom(h, a + b) == FnvFrom(FnvFrom(h, a), b)
    decreases |a|
  {
    if a == [] {
      assert a + b == b;
    } else {
      assert (a + b)[0] == a[0] && (a + b)[1..] == a[1..] + b;
      FnvFromAppend(FnvStep(h, a[0]), a[1..], b);
    }
  }

  /** The hash of a string extended by one byte is one more step. */
  lemma HashSnoc(s: bytes, b: byte)
    ensures Hash(s + [b]) == FnvStep(Hash(s), b)
  {
    FnvFromAppend(OffsetBasis, s, [b]);
  }

  /** Reference values of the FNV draft: the empty string, "a" and "foobar". */
  lemma HashVectors()
    ensures Hash([]) == 0x811c9dc5
    ensures Hash([0x61]) == 0xe40c292c
    ensures Hash([0x66, 0x6f, 0x6f, 0x62, 0x61, 0x72]) == 0xbf9cf968
  {
    var foobar: bytes := [0x66, 0x6f, 0x6f, 0x62, 0x61, 0x72];
    assert foobar[1..] == [0x6f, 0x6f, 0x62, 0x61, 0x72];
    assert foobar[2..] == [0x6f, 0x62, 0x61, 0x72];
    assert foobar[3..] == [0x62, 0x61, 0x72];
    assert foobar[4..] == [0x61, 0x72];
    assert foobar[5..] == [0x72];
    assert FnvFrom(0x811c9dc5, [0x61]) == FnvFrom(FnvStep(0x811c9dc5, 0x61), []);
    var h1 := FnvStep(0x811c9dc5, 0x66);
    assert h1 == 0xe30c2799;
    var h2 := FnvStep(h1, 0x6f);
    assert h2 == 0x6222e842;
    var h3 := FnvStep(h2, 0x6f);
    assert h3 == 0xa9f37ed7;
    var h4 := FnvStep(h3, 0x62);
    assert h4 == 0x3f5076ef;
    var h5 := FnvStep(h4, 0x61);
    assert h5 == 0x39aaa18a;
    var h6 := FnvStep(h5, 0x72);
    assert h6 == 0xbf9cf968;
    assert FnvFrom(h5, foobar[5..]) == h6;
    assert FnvFrom(h4, foobar[4..]) == h6;
    assert FnvFrom(h3, foobar[3..]) == h6;
    assert FnvFrom(h2, foobar[2..]) == h6;
    assert FnvFrom(h1, foobar[1..]) == h6;
  }

  // ---------------------------------------------------------------------
  // The bucket topic
  // ---------------------------------------------------------------------

  const Buckets := 100
  const Underscore: byte := 0x5f
  const Zero: byte := 0x30

  /** The ASCII bytes of "live_stream". */
  const LiveStream: bytes := [0x6c, 0x69, 0x76, 0x65, 0x5f, 0x73, 0x74, 0x72, 0x65, 0x61, 0x6d]

  lemma LiveStreamIsAscii()
    ensures LiveStream == Ascii("live_stream")
  {
    var t := Ascii("live_stream");
    assert t[0] == 0x6c && t[1] == 0x69 && t[2] == 0x76 && t[3] == 0x65 && t[4] == 0x5f && t[5] == 0x73;
    assert t[6] == 0x74 && t[7] == 0x72 && t[8] == 0x65 && t[9] == 0x61 && t[10] == 0x6d;
  }

  /** The bucket of a user: hash(userID) % 100 on the uint32 hash. */
  function Bucket(userID: bytes): (n: nat)
    ensures n < Buckets
  {
    (Hash(userID) as nat) % Buckets
  }

  function IsDigit(b: byte): bool
  {
    Zero <= b < Zero + 10
  }

  /** %d of a natural number: its decimal digits, most significant first. */
  function Decimal(n: nat): (d: bytes)
    ensures d != [] && forall k :: 0 <= k < |d| ==> IsDigit(d[k])
  {
    if n < 10 then [Zero + n] else Decimal(n / 10) + [Zero + n % 10]
  }

  /** The value of a string of decimal digits. */
  function DecimalValue(d: bytes): nat
    requires forall k :: 0 <= k < |d| ==> IsDigit(d[k])
  {
    if d == [] then 0
    else
      assert IsDigit(d[|d| - 1]);
      DecimalValue(d[..|d| - 1]) * 10 + (d[|d| - 1] as int - Zero as int)
  }

  /** The digits of n read back as n, with no leading zero. */
  lemma {:induction false} DecimalRoundTrip(n: nat)
    ensures DecimalValue(Decimal(n)) == n
    ensures Decimal(n)[0] != Zero || n == 0
    decreases n
  {
    if n >= 10 {
      var d := Decimal(n);
      DecimalRoundTrip(n / 10);
      assert d[..|d| - 1] == Decimal(n / 10);
      assert d[0] == Decimal(n / 10)[0];
    }
  }

  /** A bucket number takes one or two digits. */
  lemma BucketDigits(n: nat)
    requires n < Buckets
    ensures 1 <= |Decimal(n)| <= 2
  {
  }

  /** The topic a subscription is redirected to: "live_stream" becomes
      "live_stream_" and the user's bucket; other topics are kept. */
  function RewriteTopic(userID: bytes, topic: bytes): bytes
  {
    if topic == LiveStream then LiveStream + [Underscore] + Decimal(Bucket(userID)) else topic
  }

  /** The hot topic is sent to the user's bucket: the rewritten name is
      "live_stream_" followed by the digits of a number below 100, that
      number is the user's bucket, and it is the same for every call. */
  lemma RewriteHotTopic(userID: bytes)
    ensures var t := RewriteTopic(userID, LiveStream);
      && |LiveStream| + 2 <= |t| <= |LiveStream| + 3
      && t[..|LiveStream| + 1] == LiveStream + [Underscore]
      && (forall k :: |LiveStream| + 1 <= k < |t| ==> IsDigit(t[k]))
      && DecimalValue(t[|LiveStream| + 1..]) == Bucket(userID) < Buckets
      && (t[|LiveStream| + 1] != Zero || Bucket(userID) == 0)
  {
    var t := RewriteTopic(userID, LiveStream);
    var d := Decimal(Bucket(userID));
    BucketDigits(Bucket(userID));
    DecimalRoundTrip(Bucket(userID));
    assert t[|LiveStream| + 1..] == d;
    assert t[..|LiveStream| + 1] == LiveStream + [Underscore];
  }

  /** Other topics pass through, and a bucket topic is never rewritten
      again: the hook is idempotent. */
  lemma RewriteIdempotent(userID: bytes, topic: bytes)
    ensures topic != LiveStream ==> RewriteTopic(userID, topic) == topic
    ensures RewriteTopic(userID, RewriteTopic(userID, topic)) == RewriteTopic(userID, topic)
  {
    if topic == LiveStream {
      var t := RewriteTopic(userID, topic);
      assert |t| > |LiveStream|;
    }
  }

  /** The before-subscribe hook: one output topic per input topic, in the
      same order, each rewritten; the subscription is always allowed. */
  method BeforeSubscribe(userID: bytes, topics: seq<bytes>) returns (newTopics: seq<bytes>, allow: bool)
    ensures allow
    ensures |newTopics| == |topics|
    ensures forall k :: 0 <= k < |topics| ==> newTopics[k] == RewriteTopic(userID, topics[k])
  {
    newTopics := [];
    for i := 0 to |topics|
      invariant |newTopics| == i
      invariant forall k :: 0 <= k < i ==> newTopics[k] == RewriteTopic(userID, topics[k])
    {
      var topic := topics[i];
      if topic == LiveStream {
        var bucketID := (Hash(userID) as nat) % Buckets;
        var targetTopic := topic + [Underscore] + Decimal(bucketID);
        newTopics := newTopics + [targetTopic];
      } else {
        newTopics := newTopics + [topic];
      }
    }
    return newTopics, true;
  }
}

=== FILE: depack_props.dfy ===
/** Properties of Depack over whole buffers: a frame built by Enpack comes
    back as its message, frames are taken in order, a half packet is kept
    as the leftover, garbage before a frame is skipped, the leftover is a
    suffix that is either too short or an incomplete frame, and a negative
    length panics. */
module DepackProps {
  import opened Protocol
  import opened ProtocolProps

  /** A frame around `body`: header, length field, body. */
  function Frame(body: bytes): bytes
  {
    Header + IntToBytes(|body|) + body
  }

  /** The fields Enpack joins with spaces hold no space and no newline. */
  predicate Field(x: bytes)
  {
    Space !in x && NewLine !in x
  }

  /** The arguments for which Depack gives back exactly what Enpack was
      given: space- and newline-free fields, non-empty type and topic, a
      topic not ending in a carriage return, a body that fits the reader. */
  predicate Sendable(kind: bytes, id: bytes, source: bytes, topic: bytes, content: bytes)
  {
    && kind != [] && topic != []
    && Field(kind) && Field(id) && Field(source) && Field(topic)
    && PlainLine(topic)
    && |Body(kind, id, source, topic, content)| <= ReaderSize
  }

  /** `ms` emitted ahead of the outcome `r`. */
  function EmittedFirst(ms: seq<Message>, r: DepackResult): DepackResult
  {
    r.(emitted := ms + r.emitted)
  }

  // ---------------------------------------------------------------------
  // Messages of a sequence of bodies
  // ---------------------------------------------------------------------

  /** The messages of two runs of bodies are those of each, in order. */
  lemma {:induction false} MessagesAppend(a: seq<bytes>, b: seq<bytes>)
    ensures Messages(a + b) == Messages(a) + Messages(b)
    decreases |b|
  {
    if b == [] {
      assert a + b == a;
    } else {
      var init := b[..|b| - 1];
      var last := b[|b| - 1];
      assert a + b == (a + init) + [last];
      assert b == init + [last];
      MessagesSnoc(a + init, last);
      MessagesSnoc(init, last);
      MessagesAppend(a, init);
    }
  }

  // ---------------------------------------------------------------------
  // The scan does not depend on what lies before it
  // ---------------------------------------------------------------------

  /** Scanning `p + s` from inside `s` is scanning `s`. */
  lemma {:induction false} ScanShift(p: bytes, s: bytes, k: nat)
    requires k <= |s|
    ensures ScanFrom(p + s, |p| + k) == ScanFrom(s, k)
    decreases |s| - k
  {
    var buffer := p + s;
    var i := |p| + k;
    if |s| < k + FrameOverhead {
      assert buffer[i..] == s[k..];
      ScanStops(buffer, i);
      ScanStops(s, k);
    } else {
      assert HeaderAt(buffer, i) == HeaderAt(s, k) by {
        assert buffer[i..i + HeaderLength] == s[k..k + HeaderLength];
        HeaderAtSlice(buffer, i);
        HeaderAtSlice(s, k);
      }
      if !HeaderAt(s, k) {
        ScanSkipsByte(buffer, i);
        ScanSkipsByte(s, k);
        ScanShift(p, s, k + 1);
      } else {
        var m := DeclaredLength(s, k);
        assert DeclaredLength(buffer, i) == m by {
          assert buffer[i + HeaderLength..i + FrameOverhead] == s[k + HeaderLength..k + FrameOverhead];
        }
        if |s| < k + FrameOverhead + m {
          assert buffer[i..] == s[k..];
          ScanStops(buffer, i);
          ScanStops(s, k);
        } else if m < 0 {
          ScanPanics(buffer, i);
          ScanPanics(s, k);
        } else {
          assert buffer[i + FrameOverhead..i + FrameOverhead + m] == s[k + FrameOverhead..k + FrameOverhead + m];
          ScanTakesFrame(buffer, i, m);
          ScanTakesFrame(s, k, m);
          ScanShift(p, s, k + FrameOverhead + m);
        }
      }
    }
  }


  /** A frame of non-negative int32 length at the front is taken whole. */
  lemma ScanFrame(body: bytes, rest: bytes)
    requires |body| < TwoTo31
    ensures ScanFrom(Frame(body) + rest, 0) == After([body], ScanFrom(rest, 0))
  {
    var frame := Frame(body);
    var buffer := frame + rest;
    assert buffer[0..HeaderLength] == Header;
    HeaderAtSlice(buffer, 0);
    assert buffer[HeaderLength..FrameOverhead] == IntToBytes(|body|);
    IntRoundTrip(|body|);
    assert IntToBytes(|body|)[..IntLength] == IntToBytes(|body|);
    assert DeclaredLength(buffer, 0) == |body|;
    assert buffer[FrameOverhead..FrameOverhead + |body|] == body;
    ScanTakesFrame(buffer, 0, |body|);
    ScanShift(frame, rest, 0);
  }

  /** Depack of a frame followed by more bytes: the frame's message, if
      any, then whatever the rest gives. */
  lemma DepackFrameThenRest(body: bytes, rest: bytes)
    requires |body| < TwoTo31
    ensures DepackOf(Frame(body) + rest) == EmittedFirst(Messages([body]), DepackOf(rest))
  {
    ScanFrame(body, rest);
    MessagesAppend([body], ScanFrom(rest, 0).bodies);
  }

  /** The messages of one body: its message if it parses, none otherwise. */
  lemma MessagesOne(body: bytes)
    ensures Messages([body]) == Emitted(ParseFrame(body))
  {
    MessagesSnoc([], body);
    assert [] + [body] == [body];
  }

  /** A complete frame whose body gives no message (an empty body, or a
      line of fewer than four tokens) emits nothing and is passed over
      whole: Depack goes on right after it. */
  lemma UnparsedFrameSkipped(body: bytes, rest: bytes)
    requires |body| < TwoTo31
    requires body == [] || |SplitOn(ReadLineThenContent(body).value.line, Space)| < 4
    ensures DepackOf(Frame(body) + rest) == DepackOf(rest)
  {
    DepackFrameThenRest(body, rest);
    MessagesOne(body);
    assert [] + DepackOf(rest).emitted == DepackOf(rest).emitted;
  }

  // ---------------------------------------------------------------------
  // Enpack then Depack
  // ---------------------------------------------------------------------

  /** What Enpack succeeds with is the frame around the body. */
  lemma EnpackIsFrame(kind: bytes, id: bytes, source: bytes, topic: bytes, content: bytes)
    requires kind != [] && topic != []
    ensures Enpack(kind, id, source, topic, Some(content)) == Ok(Frame(Body(kind, id, source, topic, content)))
  {
    var r := Enpack(kind, id, source, topic, Some(content));
    var body := Body(kind, id, source, topic, content);
    assert |r.value| - FrameOverhead == |body|;
    assert r.value == r.value[..HeaderLength] + r.value[HeaderLength..FrameOverhead] + r.value[FrameOverhead..];
  }

  /** Round trip: Depack of Enpack's frame followed by any bytes yields the
      message with the fields that were packed, then what the rest yields. */
  lemma EnpackDepack(kind: bytes, id: bytes, source: bytes, topic: bytes, content: bytes, rest: bytes)
    requires Sendable(kind, id, source, topic, content)
    ensures Enpack(kind, id, source, topic, Some(content)).Ok?
    ensures DepackOf(Enpack(kind, id, source, topic, Some(content)).value + rest)
            == EmittedFirst([Message(kind, id, source, topic, content)], DepackOf(rest))
  {
    var body := Body(kind, id, source, topic, content);
    EnpackIsFrame(kind, id, source, topic, content);
    ParseBodyRoundTrip(kind, id, source, topic, content);
    MessagesOne(body);
    DepackFrameThenRest(body, rest);
  }

  /** One frame alone: one message and nothing left over. */
  lemma EnpackDepackAlone(kind: bytes, id: bytes, source: bytes, topic: bytes, content: bytes)
    requires Sendable(kind, id, source, topic, content)
    ensures DepackOf(Enpack(kind, id, source, topic, Some(content)).value)
            == Depacked([Message(kind, id, source, topic, content)], [])
  {
    var frame := Enpack(kind, id, source, topic, Some(content)).value;
    EnpackDepack(kind, id, source, topic, content, []);
    assert frame + [] == frame;
  }

  /** Two frames back to back give both messages, in order, and no leftover. */
  lemma TwoPackets(k1: bytes, i1: bytes, s1: bytes, t1: bytes, c1: bytes,
                   k2: bytes, i2: bytes, s2: bytes, t2: bytes, c2: bytes)
    requires Sendable(k1, i1, s1, t1, c1) && Sendable(k2, i2, s2, t2, c2)
    ensures DepackOf(Enpack(k1, i1, s1, t1, Some(c1)).value + Enpack(k2, i2, s2, t2, Some(c2)).value)
            == Depacked([Message(k1, i1, s1, t1, c1), Message(k2, i2, s2, t2, c2)], [])
  {
    var second := Enpack(k2, i2, s2, t2, Some(c2)).value;
    EnpackDepack(k1, i1, s1, t1, c1, second);
    EnpackDepackAlone(k2, i2, s2, t2, c2);
    assert DepackOf(second) == Depacked([Message(k2, i2, s2, t2, c2)], []);
    assert [Message(k1, i1, s1, t1, c1)] + [Message(k2, i2, s2, t2, c2)]
           == [Message(k1, i1, s1, t1, c1), Message(k2, i2, s2, t2, c2)];
  }

  // ---------------------------------------------------------------------
  // Half packets
  // ---------------------------------------------------------------------

  /** A frame cut short after its length field waits: no message, and the
      whole of it is kept for the next read. */
  lemma HalfFrameWaits(body: bytes, n: nat)
    requires |body| < TwoTo31
    requires FrameOverhead <= n < |Frame(body)|
    ensures DepackOf(Frame(body)[..n]) == Depacked([], Frame(body)[..n])
  {
    var frame := Frame(body);
    var h := frame[..n];
    assert frame[0..HeaderLength] == Header;
    assert frame[HeaderLength..FrameOverhead] == IntToBytes(|body|);
    assert h[0..HeaderLength] == frame[0..HeaderLength];
    assert h[HeaderLength..FrameOverhead] == frame[HeaderLength..FrameOverhead];
    HeaderAtSlice(h, 0);
    IntRoundTrip(|body|);
    assert IntToBytes(|body|)[..IntLength] == IntToBytes(|body|);
    ScanStops(h, 0);
    assert h[0..] == h;
  }

  /** A body built by Enpack is at least six bytes: type, three spaces,
      topic and the newline. */
  lemma BodyLength(kind: bytes, id: bytes, source: bytes, topic: bytes, content: bytes)
    requires kind != [] && topic != []
    ensures |Body(kind, id, source, topic, content)| >= 6
  {
  }

  /** A whole packet followed by a packet missing its last two bytes: the
      first message is emitted and the truncated packet is the leftover. */
  lemma PacketThenHalfPacket(k1: bytes, i1: bytes, s1: bytes, t1: bytes, c1: bytes,
                             k2: bytes, i2: bytes, s2: bytes, t2: bytes, c2: bytes)
    requires Sendable(k1, i1, s1, t1, c1) && Sendable(k2, i2, s2, t2, c2)
    ensures var second := Enpack(k2, i2, s2, t2, Some(c2)).value;
            |second| >= 2
            && DepackOf(Enpack(k1, i1, s1, t1, Some(c1)).value + second[..|second| - 2])
               == Depacked([Message(k1, i1, s1, t1, c1)], second[..|second| - 2])
  {
    var body := Body(k2, i2, s2, t2, c2);
    EnpackIsFrame(k2, i2, s2, t2, c2);
    BodyLength(k2, i2, s2, t2, c2);
    var second := Frame(body);
    HalfFrameWaits(body, |second| - 2);
    EnpackDepack(k1, i1, s1, t1, c1, second[..|second| - 2]);
  }

  // ---------------------------------------------------------------------
  // The leftover
  // ---------------------------------------------------------------------

  /** Whether `rest` may be left over: fewer bytes than a header and length
      field, or a header whose declared body runs past the end. */
  predicate Unfinished(rest: bytes)
  {
    |rest| < FrameOverhead
    || (HeaderAt(rest, 0) && |rest| < FrameOverhead + DeclaredLength(rest, 0))
  }

  /** Where the scan from i stops at a leftover, that leftover is the
      buffer from some offset j >= i on. */
  lemma {:induction false} ScanLeftoverSuffix(buffer: bytes, i: nat) returns (j: nat)
    requires i <= |buffer|
    requires ScanFrom(buffer, i).stop.Leftover?
    ensures i <= j <= |buffer| && ScanFrom(buffer, i).stop.rest == buffer[j..]
    decreases |buffer| - i
  {
    if |buffer| < i + FrameOverhead {
      ScanStops(buffer, i);
      j := i;
    } else if !HeaderAt(buffer, i) {
      ScanSkipsByte(buffer, i);
      j := ScanLeftoverSuffix(buffer, i + 1);
    } else {
      var m := DeclaredLength(buffer, i);
      if |buffer| < i + FrameOverhead + m {
        ScanStops(buffer, i);
        j := i;
      } else if 0 <= m {
        ScanTakesFrame(buffer, i, m);
        j := ScanLeftoverSuffix(buffer, i + FrameOverhead + m);
      }
    }
  }

  /** Where the scan from i stops at a leftover, that leftover is an
      unfinished frame. */
  lemma {:induction false} ScanLeftoverUnfinished(buffer: bytes, i: nat)
    requires i <= |buffer|
    requires ScanFrom(buffer, i).stop.Leftover?
    ensures Unfinished(ScanFrom(buffer, i).stop.rest)
    decreases |buffer| - i
  {
    if |buffer| < i + FrameOverhead {
      ScanStops(buffer, i);
    } else if !HeaderAt(buffer, i) {
      ScanSkipsByte(buffer, i);
      ScanLeftoverUnfinished(buffer, i + 1);
    } else {
      var m := DeclaredLength(buffer, i);
      if |buffer| < i + FrameOverhead + m {
        ScanStops(buffer, i);
        var rest := buffer[i..];
        assert HeaderAt(rest, 0) by {
          assert rest[0..HeaderLength] == buffer[i..i + HeaderLength];
          HeaderAtSlice(rest, 0);
          HeaderAtSlice(buffer, i);
        }
        assert rest[HeaderLength..FrameOverhead] == buffer[i + HeaderLength..i + FrameOverhead];
      } else if 0 <= m {
        ScanTakesFrame(buffer, i, m);
        ScanLeftoverUnfinished(buffer, i + FrameOverhead + m);
      }
    }
  }

  /** What Depack leaves over is a suffix of its input that is either
      shorter than a header and length field or an incomplete frame. */
  lemma DepackLeftover(buffer: bytes)
    requires DepackOf(buffer).Depacked?
    ensures var rest := DepackOf(buffer).leftover;
            |rest| <= |buffer| && rest == buffer[|buffer| - |rest|..] && Unfinished(rest)
  {
    var j := ScanLeftoverSuffix(buffer, 0);
    ScanLeftoverUnfinished(buffer, 0);
  }

  // ---------------------------------------------------------------------
  // Resynchronisation and the negative length
  // ---------------------------------------------------------------------

  /** Bytes before a frame in which no header starts are skipped one by one. */
  lemma {:induction false} SkipGarbage(g: bytes, s: bytes, j: nat)
    requires j <= |g| && FrameOverhead <= |s|
    requires forall k :: j <= k < |g| ==> !HeaderAt(g + s, k)
    ensures ScanFrom(g + s, j) == ScanFrom(s, 0)
    decreases |g| - j
  {
    if j == |g| {
      ScanShift(g, s, 0);
    } else {
      assert !HeaderAt(g + s, j);
      ScanSkipsByte(g + s, j);
      SkipGarbage(g, s, j + 1);
    }
  }

  /** Depack resynchronises: garbage in which no header starts, ahead of a
      buffer of at least a header and length field, changes nothing. */
  lemma DepackSkipsGarbage(g: bytes, s: bytes)
    requires FrameOverhead <= |s|
    requires forall k :: 0 <= k < |g| ==> !HeaderAt(g + s, k)
    ensures DepackOf(g + s) == DepackOf(s)
  {
    SkipGarbage(g, s, 0);
  }

  /** A header that declares a negative length panics Depack before it
      emits anything, whatever follows. */
  lemma NegativeLengthPanics(n: int, rest: bytes)
    requires -TwoTo31 <= n < 0
    ensures DepackOf(Header + IntToBytes(n) + rest) == Panicked([])
  {
    var buffer := Header + IntToBytes(n) + rest;
    assert buffer[0..HeaderLength] == Header;
    HeaderAtSlice(buffer, 0);
    assert buffer[HeaderLength..FrameOverhead] == IntToBytes(n);
    IntRoundTrip(n);
    assert IntToBytes(n)[..IntLength] == IntToBytes(n);
    ScanPanics(buffer, 0);
  }
}

=== FILE: manager_client.dfy ===
/** The gateway's connection to the topic manager: dial the manager's gRPC
    service until it answers, create the TCP client and register the push
    handler, then connect the TCP client until it succeeds. Each failure
    sleeps, and the sleep starts at one second, doubles after every
    failure and is capped at thirty seconds; it starts again at one
    second for the TCP phase.

    The dial results are an oracle: the number of failures before the
    first success in each phase. */
module ManagerClient {
  import opened Protocol
  import opened Socket

  /** The longest sleep between two attempts, in seconds. */
  const MaxSleep := 30

  /** What the connection routine does, in order. */
  datatype Event =
    | GrpcDial(ok: bool)
    | Sleep(seconds: nat)
    | RegisterPushHandler
    | TcpConnect(ok: bool)

  function Pow2(k: nat): (p: nat)
    ensures p >= 1
  {
    if k == 0 then 1 else 2 * Pow2(k - 1)
  }

  /** The sleep after the k-th failure of a phase (counting from 0): 1, 2,
      4, 8, 16, then 30 for ever. */
  function Backoff(k: nat): (seconds: nat)
  {
    if k < 5 then Pow2(k) else MaxSleep
  }

  /** Doubling a wait and clamping it at thirty seconds moves the schedule
      on by one failure. */
  lemma BackoffStep(k: nat)
    ensures Backoff(k + 1) == if 2 * Backoff(k) > MaxSleep then MaxSleep else 2 * Backoff(k)
  {
    if k < 5 {
      assert Pow2(k + 1) == 2 * Pow2(k);
      if k < 4 {
        assert Pow2(k) <= 8 by {
          if k > 0 { assert Pow2(k) == 2 * Pow2(k - 1); }
          if k > 1 { assert Pow2(k - 1) == 2 * Pow2(k - 2); }
          if k > 2 { assert Pow2(k - 2) == 2 * Pow2(k - 3); }
        }
      } else {
        assert Pow2(4) == 16 by {
          assert Pow2(1) == 2 && Pow2(2) == 4 && Pow2(3) == 8;
        }
      }
    }
  }

  /** The sleeps of a phase: 1, 2, 4, 8, 16 seconds, then 30 from the sixth
      failure on. */
  lemma BackoffSchedule(k: nat)
    ensures Backoff(0) == 1 && Backoff(1) == 2 && Backoff(2) == 4
    ensures Backoff(3) == 8 && Backoff(4) == 16 && Backoff(5) == 30
    ensures k >= 5 ==> Backoff(k) == MaxSleep
  {
    assert Pow2(1) == 2 && Pow2(2) == 4 && Pow2(3) == 8;
  }

  /** Every sleep lasts from one to thirty seconds, and the schedule never
      shrinks. */
  lemma {:induction false} BackoffBounds(k: nat)
    ensures 1 <= Backoff(k) <= MaxSleep
    ensures Backoff(k) <= Backoff(k + 1)
  {
    BackoffStep(k);
    if k < 5 {
      assert Backoff(k) <= 16 by {
        if k > 0 { assert Pow2(k) == 2 * Pow2(k - 1); }
        if k > 1 { assert Pow2(k - 1) == 2 * Pow2(k - 2); }
        if k > 2 { assert Pow2(k - 2) == 2 * Pow2(k - 3); }
        if k > 3 { assert Pow2(k - 3) == 2 * Pow2(k - 4); }
      }
    }
  }

  /** The failed attempts of a retry phase, each followed by its sleep. */
  function Retries(failures: nat, grpc: bool): (events: seq<Event>)
    ensures |events| == 2 * failures
  {
    if failures == 0 then []
    else Retries(failures - 1, grpc) + [Attempt(grpc, false), Sleep(Backoff(failures - 1))]
  }

  /** One retry phase: the failed attempts, then the successful one. */
  function Phase(failures: nat, grpc: bool): (events: seq<Event>)
    ensures |events| == 2 * failures + 1
  {
    Retries(failures, grpc) + [Attempt(grpc, true)]
  }

  function Attempt(grpc: bool, ok: bool): Event
  {
    if grpc then GrpcDial(ok) else TcpConnect(ok)
  }

  /** The whole routine: the gRPC phase, the push handler, the TCP phase. */
  function ManagerTrace(grpcFailures: nat, tcpFailures: nat): (trace: seq<Event>)
    ensures |trace| == 2 * (grpcFailures + tcpFailures) + 3
  {
    Phase(grpcFailures, true) + [RegisterPushHandler] + Phase(tcpFailures, false)
  }

  /** In a phase, attempt k (k < failures) fails and is followed by the
      k-th sleep of the schedule, and the last attempt succeeds. */
  lemma {:induction false} RetriesShape(failures: nat, grpc: bool)
    ensures forall k :: 0 <= k < failures ==>
      Retries(failures, grpc)[2 * k] == Attempt(grpc, false) && Retries(failures, grpc)[2 * k + 1] == Sleep(Backoff(k))
  {
    if failures > 0 {
      RetriesShape(failures - 1, grpc);
      var r := Retries(failures, grpc);
      var prev := Retries(failures - 1, grpc);
      assert forall j :: 0 <= j < |prev| ==> r[j] == prev[j];
    }
  }

  lemma PhaseShape(failures: nat, grpc: bool)
    ensures forall k :: 0 <= k < failures ==>
      Phase(failures, grpc)[2 * k] == Attempt(grpc, false) && Phase(failures, grpc)[2 * k + 1] == Sleep(Backoff(k))
    ensures Phase(failures, grpc)[2 * failures] == Attempt(grpc, true)
  {
    RetriesShape(failures, grpc);
    var p := Phase(failures, grpc);
    var r := Retries(failures, grpc);
    assert forall j :: 0 <= j < |r| ==> p[j] == r[j];
  }

  /** Every sleep in `events` lasts one to thirty seconds. */
  predicate SleepsWithinCap(events: seq<Event>)
  {
    forall i :: 0 <= i < |events| && events[i].Sleep? ==> 1 <= events[i].seconds <= MaxSleep
  }

  /** Every sleep of a phase lasts one to thirty seconds. */
  lemma PhaseSleepsBounded(failures: nat, grpc: bool)
    ensures SleepsWithinCap(Phase(failures, grpc))
  {
    var p := Phase(failures, grpc);
    PhaseShape(failures, grpc);
    forall i | 0 <= i < |p| && p[i].Sleep?
      ensures 1 <= p[i].seconds <= MaxSleep
    {
      var k := i / 2;
      assert i == 2 * k || i == 2 * k + 1;
      BackoffBounds(k);
    }
  }

  /** Every sleep of the routine lasts one to thirty seconds. */
  lemma SleepsBounded(grpcFailures: nat, tcpFailures: nat)
    ensures SleepsWithinCap(ManagerTrace(grpcFailures, tcpFailures))
  {
    var g := Phase(grpcFailures, true);
    var t := Phase(tcpFailures, false);
    PhaseSleepsBounded(grpcFailures, true);
    PhaseSleepsBounded(tcpFailures, false);
    var trace := ManagerTrace(grpcFailures, tcpFailures);
    assert trace[|g|] == RegisterPushHandler;
    forall i | 0 <= i < |trace| && trace[i].Sleep?
      ensures 1 <= trace[i].seconds <= MaxSleep
    {
      if i < |g| {
        assert trace[i] == g[i];
      } else if i > |g| {
        assert trace[i] == t[i - |g| - 1];
      }
    }
  }

  /** A phase opens with its first attempt, which succeeds only when no
      attempt fails, and a first failure is followed by a one-second sleep. */
  lemma PhaseStart(failures: nat, grpc: bool)
    ensures Phase(failures, grpc)[0] == Attempt(grpc, failures == 0)
    ensures failures > 0 ==> Phase(failures, grpc)[1] == Sleep(1)
  {
    if failures > 0 {
      var p := Phase(failures, grpc);
      RetriesShape(failures, grpc);
      var first := 0;
      assert Retries(failures, grpc)[2 * first] == Attempt(grpc, false);
      assert Retries(failures, grpc)[2 * first + 1] == Sleep(Backoff(first));
      assert p[0] == Retries(failures, grpc)[0] && p[1] == Retries(failures, grpc)[1];
      BackoffSchedule(0);
    }
  }

  /** The push handler is registered after the gRPC dial succeeded and
      before the first TCP connect, and the first sleep of the TCP phase is
      one second however many gRPC dials failed. */
  lemma RegisterBeforeTcp(grpcFailures: nat, tcpFailures: nat)
    ensures var trace := ManagerTrace(grpcFailures, tcpFailures);
      && trace[2 * grpcFailures] == GrpcDial(true)
      && trace[2 * grpcFailures + 1] == RegisterPushHandler
      && (forall k :: 0 <= k <= 2 * grpcFailures ==> !trace[k].TcpConnect?)
      && trace[2 * grpcFailures + 2] == TcpConnect(tcpFailures == 0)
      && (tcpFailures > 0 ==> trace[2 * grpcFailures + 3] == Sleep(1))
  {
    PhaseShape(grpcFailures, true);
    PhaseStart(tcpFailures, false);
    var trace := ManagerTrace(grpcFailures, tcpFailures);
    var g := Phase(grpcFailures, true);
    var t := Phase(tcpFailures, false);
    assert trace[|g|] == RegisterPushHandler;
    assert trace[|g| + 1] == t[0];
    if tcpFailures > 0 {
      assert trace[|g| + 2] == t[1];
    }
    forall k | 0 <= k <= 2 * grpcFailures
      ensures !trace[k].TcpConnect?
    {
      assert trace[k] == g[k];
      if k < 2 * grpcFailures {
        assert g[2 * (k / 2)] == GrpcDial(false);
      }
    }
  }

  /** buildManagerClient: dial gRPC with backoff, create the TCP client,
      register the push handler, reset the sleep to one second and connect
      the TCP client with backoff. Returns what it did and the connected
      client. */
  method BuildManagerClient(address: bytes, grpcFailures: nat, tcpFailures: nat)
    returns (trace: seq<Event>, client: TcpClient)
    ensures trace == ManagerTrace(grpcFailures, tcpFailures)
    ensures fresh(client) && client.Valid() && client.address == address
    ensures !client.isClose && !client.manualClose && client.generation == 1
    ensures client.conn == Some(Handle(1, false)) && client.readIn == [] && client.sendOut == []
  {
    var sleepTime := 1;
    var failures := 0;
    var grpcTrace := [];
    while failures < grpcFailures
      invariant failures <= grpcFailures
      invariant grpcTrace == Retries(failures, true)
      invariant sleepTime == Backoff(failures)
    {
      grpcTrace := grpcTrace + [GrpcDial(false), Sleep(sleepTime)];
      BackoffStep(failures);
      sleepTime := sleepTime * 2;
      if sleepTime > MaxSleep {
        sleepTime := MaxSleep;
      }
      failures := failures + 1;
    }
    grpcTrace := grpcTrace + [GrpcDial(true)];
    client := new TcpClient(address);
    sleepTime := 1;
    failures := 0;
    var tcpTrace := [];
    while true
      invariant failures <= tcpFailures
      invariant tcpTrace == Retries(failures, false)
      invariant sleepTime == Backoff(failures)
      invariant fresh(client) && client.Valid() && client.address == address
      invariant !client.manualClose && client.readIn == [] && client.sendOut == []
      invariant client.generation == 0 && client.conn.None?
      decreases tcpFailures - failures
    {
      var err := client.Connect(failures == tcpFailures);
      if err.None? {
        tcpTrace := tcpTrace + [TcpConnect(true)];
        break;
      }
      tcpTrace := tcpTrace + [TcpConnect(false), Sleep(sleepTime)];
      BackoffStep(failures);
      sleepTime := sleepTime * 2;
      if sleepTime > MaxSleep {
        sleepTime := MaxSleep;
      }
      failures := failures + 1;
    }
    trace := grpcTrace + [RegisterPushHandler] + tcpTrace;
  }
}

=== FILE: protocol.dfy ===
/** The binary wire codec of the socket package.

    A frame is the literal header "FireHeader", a 4-byte big-endian signed
    body length and the body `type SP id SP source SP topic LF content`.
    `Enpack` builds one frame; `Depack` scans a byte buffer, emits every
    complete frame it finds as a message and returns the unconsumed suffix
    (the half packet carried into the next read). */
module Protocol {

  datatype Option<T> = None | Some(value: T)

  /** Errors of the socket package: the three refusals of Enpack, the
      closed-client and send-timeout errors, and a failed dial. */
  datatype Error = TypeIsEmpty | TopicIsEmpty | ContentIsEmpty | Closed | Blocked | DialFailed

  datatype Result<T> = Ok(value: T) | Err(error: Error)

  type byte = b: int | 0 <= b < 256
  type bytes = seq<byte>

  /** The bytes of an ASCII literal (Go strings are byte strings). */
  function Ascii(s: string): (r: bytes)
    requires forall k :: 0 <= k < |s| ==> s[k] as int < 256
    ensures |r| == |s| && forall k :: 0 <= k < |s| ==> r[k] == s[k] as int
  {
    seq(|s|, k requires 0 <= k < |s| => s[k] as int)
  }

  const HeaderLength := 10
  const IntLength := 4
  /** Header plus length field: the smallest number of bytes Depack looks at. */
  const FrameOverhead := HeaderLength + IntLength
  /** The ASCII bytes of "FireHeader" (see HeaderIsFireHeader). */
  const Header: bytes := [0x46, 0x69, 0x72, 0x65, 0x48, 0x65, 0x61, 0x64, 0x65, 0x72]
  const Space: byte := 0x20
  const NewLine: byte := 0x0A
  const CarriageReturn: byte := 0x0D
  /** Default size of the buffered reader Depack wraps around each body. */
  const ReaderSize := 4096

  const TwoTo31 := 0x8000_0000
  const TwoTo32 := 0x1_0000_0000

  /** The header constant spells "FireHeader" and has HeaderLength bytes. */
  lemma HeaderIsFireHeader()
    ensures Header == Ascii("FireHeader") && |Header| == HeaderLength
  {
    var h := Ascii("FireHeader");
    assert h[0] == 0x46 && h[1] == 0x69 && h[2] == 0x72 && h[3] == 0x65 && h[4] == 0x48;
    assert h[5] == 0x65 && h[6] == 0x61 && h[7] == 0x64 && h[8] == 0x65 && h[9] == 0x72;
  }

  /** One decoded frame. The source keeps `id` and `source` in the message's
      context record and `kind` in its Type field. */
  datatype Message = Message(kind: bytes, id: bytes, source: bytes, topic: bytes, data: bytes)

  // ---------------------------------------------------------------------
  // The length field
  // ---------------------------------------------------------------------

  /** Go's conversion int32(n): the low 32 bits read as two's complement. */
  function ToInt32(n: int): (v: int)
    ensures -TwoTo31 <= v < TwoTo31
    ensures (n - v) % TwoTo32 == 0
  {
    var u := n % TwoTo32;
    if u < TwoTo31 then u else u - TwoTo32
  }

  /** The unsigned value of four big-endian bytes. */
  function BigEndian(b: bytes): nat
    requires |b| == IntLength
  {
    b[0] as int * 0x100_0000 + b[1] as int * 0x1_0000 + b[2] as int * 0x100 + b[3] as int
  }

  /** IntToBytes: binary.Write of int32(n), big-endian. */
  function IntToBytes(n: int): (r: bytes)
    ensures |r| == IntLength
    ensures BigEndian(r) == n % TwoTo32
  {
    var u := n % TwoTo32;
    var r := [u / 0x100_0000, u / 0x1_0000 % 0x100, u / 0x100 % 0x100, u % 0x100];
    assert u == (u / 0x100) * 0x100 + u % 0x100;
    assert u / 0x100 == (u / 0x1_0000) * 0x100 + u / 0x100 % 0x100;
    assert u / 0x1_0000 == (u / 0x100_0000) * 0x100 + u / 0x1_0000 % 0x100;
    r
  }

  /** BytesToInt: binary.Read of a big-endian int32. With fewer than four
      bytes the read fails and the variable keeps its zero value. */
  function BytesToInt(b: bytes): (v: int)
    ensures -TwoTo31 <= v < TwoTo31
    ensures |b| < IntLength ==> v == 0
    ensures |b| >= IntLength ==> (BigEndian(b[..IntLength]) - v) % TwoTo32 == 0
  {
    if |b| < IntLength then 0 else ToInt32(BigEndian(b[..IntLength]))
  }

  // ---------------------------------------------------------------------
  // Enpack
  // ---------------------------------------------------------------------

  /** The line of a body before its newline, fields in their fixed order. */
  function FieldLine(kind: bytes, id: bytes, source: bytes, topic: bytes): bytes
  {
    kind + [Space] + (id + [Space] + (source + [Space] + topic))
  }

  function Body(kind: bytes, id: bytes, source: bytes, topic: bytes, content: bytes): bytes
  {
    FieldLine(kind, id, source, topic) + [NewLine] + content
  }

  /** Enpack builds one frame. `content` is None for Go's nil slice. */
  function Enpack(kind: bytes, id: bytes, source: bytes, topic: bytes, content: Option<bytes>): (r: Result<bytes>)
    ensures kind == [] ==> r == Err(TypeIsEmpty)
    ensures kind != [] && topic == [] ==> r == Err(TopicIsEmpty)
    ensures kind != [] && topic != [] && content.None? ==> r == Err(ContentIsEmpty)
    ensures r.Ok? <==> kind != [] && topic != [] && content.Some?
    ensures r.Ok? ==>
      && |r.value| >= FrameOverhead
      && r.value[..HeaderLength] == Header
      && r.value[HeaderLength..FrameOverhead] == IntToBytes(|r.value| - FrameOverhead)
      && r.value[FrameOverhead..] == FieldLine(kind, id, source, topic) + [NewLine] + content.value
  {
    if kind == [] then Err(TypeIsEmpty)
    else if topic == [] then Err(TopicIsEmpty)
    else if content.None? then Err(ContentIsEmpty)
    else
      var body := Body(kind, id, source, topic, content.value);
      var frame := Header + IntToBytes(|body|) + body;
      assert frame[..HeaderLength] == Header;
      assert frame[HeaderLength..FrameOverhead] == IntToBytes(|body|);
      assert frame[FrameOverhead..] == body;
      Ok(frame)
  }

  // ---------------------------------------------------------------------
  // Byte-string helpers: bytes.IndexByte and bytes.Split
  // ---------------------------------------------------------------------

  /** Index of the first occurrence of `x` in `s`. */
  function IndexOf(s: bytes, x: byte): (r: Option<nat>)
    ensures r.Some? ==> r.value < |s| && s[r.value] == x && x !in s[..r.value]
    ensures r.None? <==> x !in s
  {
    if s == [] then None
    else if s[0] == x then Some(0)
    else
      match IndexOf(s[1..], x)
      case None => None
      case Some(k) =>
        assert s[..k + 1] == [s[0]] + s[1..][..k];
        Some(k + 1)
  }

  /** bytes.Split(s, [sep]): the pieces between successive separators. */
  function SplitOn(s: bytes, sep: byte): (r: seq<bytes>)
    ensures |r| >= 1
    ensures forall k :: 0 <= k < |r| ==> sep !in r[k]
    decreases |s|
  {
    match IndexOf(s, sep)
    case None => [s]
    case Some(k) => [s[..k]] + SplitOn(s[k + 1..], sep)
  }

  /** The pieces put back together, one separator between neighbours. */
  function Join(pieces: seq<bytes>, sep: byte): bytes
    requires |pieces| >= 1
  {
    if |pieces| == 1 then pieces[0] else pieces[0] + [sep] + Join(pieces[1..], sep)
  }

  // ---------------------------------------------------------------------
  // The buffered reader Depack wraps around one body
  // ---------------------------------------------------------------------

  /** What ReadLine returns: the line without its newline and content read after it. */
  datatype LineRead = LineRead(line: bytes, content: bytes)

  /** The line without "\n", and without a "\r" right before that "\n". */
  function DropCarriageReturn(line: bytes): (r: bytes)
    ensures line == r + [CarriageReturn]
            || (r == line && (line == [] || line[|line| - 1] != CarriageReturn))
  {
    if |line| > 0 && line[|line| - 1] == CarriageReturn then line[..|line| - 1] else line
  }

  /** ReadLine followed by one Read into a slice of |body| bytes, on a
      4096-byte bufio.Reader over `body`. None when ReadLine reports EOF,
      which happens exactly for an empty body. For bodies larger than the
      reader's buffer the line may be only its first 4096 bytes and the Read
      may return fewer bytes than remain. */
  function ReadLineThenContent(body: bytes): (r: Option<LineRead>)
    ensures r.None? <==> body == []
    ensures r.Some? && |body| < ReaderSize && NewLine !in body ==> r.value == LineRead(body, [])
  {
    if body == [] then None
    else
      var window := if |body| < ReaderSize then body else body[..ReaderSize];
      match IndexOf(window, NewLine)
      case Some(p) =>
        var buffered := window[p + 1..];
        Some(LineRead(DropCarriageReturn(window[..p]),
                      if buffered != [] then buffered else body[|window|..]))
      case None =>
        if |body| < ReaderSize then Some(LineRead(body, []))
        else if window[ReaderSize - 1] == CarriageReturn then
          Some(LineRead(window[..ReaderSize - 1], [CarriageReturn]))
        else Some(LineRead(window, body[ReaderSize..]))
  }

  /** One complete body turned into a message: the line splits on spaces,
      the content read after it becomes one more parameter, and a message
      exists only when the line gave at least four tokens. The data is the
      fifth parameter: the content when the line has exactly four tokens,
      the line's fifth token otherwise. */
  function ParseFrame(body: bytes): (r: Option<Message>)
    ensures body == [] ==> r.None?
    ensures r.Some? <==> body != [] && |SplitOn(ReadLineThenContent(body).value.line, Space)| >= 4
  {
    match ReadLineThenContent(body)
    case None => None
    case Some(lr) =>
      var params := SplitOn(lr.line, Space) + [lr.content];
      if |params| < 3 then None
      else if |params| >= 5 then Some(Message(params[0], params[1], params[2], params[3], params[4]))
      else None
  }

  // ---------------------------------------------------------------------
  // Depack
  // ---------------------------------------------------------------------

  /** Where the scan of a buffer ends: at the unconsumed suffix, or at the
      run-time panic (slice bounds out of range) raised by a header that
      declares a negative length. */
  datatype Stop = Leftover(rest: bytes) | NegativeLength

  /** The complete frame bodies the scan passes over, in order, and where it stops. */
  datatype Scan = Scan(bodies: seq<bytes>, stop: Stop)

  /** The outcome of Depack: the messages sent to the reader channel, in
      order, and the leftover, or a panic after `emitted` were sent. */
  datatype DepackResult =
    | Depacked(emitted: seq<Message>, leftover: bytes)
    | Panicked(emitted: seq<Message>)

  /** Whether the first n bytes of `pattern` occur in `buffer` at offset
      i. The source compares the window with the header as one string;
      this recursive form is a proof device that keeps the verifier from
      reasoning about slice equality at every step of the scan, and
      MatchesAtSlice proves it equal to that comparison. */
  function MatchesAt(buffer: bytes, i: nat, pattern: bytes, n: nat): bool
    requires n <= |pattern| && i + |pattern| <= |buffer|
  {
    n == 0 || (buffer[i + n - 1] == pattern[n - 1] && MatchesAt(buffer, i, pattern, n - 1))
  }

  /** MatchesAt is equality of the window with the pattern's prefix. */
  lemma {:induction false} MatchesAtSlice(buffer: bytes, i: nat, pattern: bytes, n: nat)
    requires n <= |pattern| && i + |pattern| <= |buffer|
    ensures MatchesAt(buffer, i, pattern, n) <==> buffer[i..i + n] == pattern[..n]
  {
    if n > 0 {
      MatchesAtSlice(buffer, i, pattern, n - 1);
      assert buffer[i..i + n] == buffer[i..i + n - 1] + [buffer[i + n - 1]];
      assert pattern[..n] == pattern[..n - 1] + [pattern[n - 1]];
    }
  }

  /** Whether a frame header starts at offset i. */
  predicate HeaderAt(buffer: bytes, i: nat)
    requires i + HeaderLength <= |buffer|
  {
    MatchesAt(buffer, i, Header, HeaderLength)
  }

  /** HeaderAt is the comparison of the ten bytes at i with the header. */
  lemma HeaderAtSlice(buffer: bytes, i: nat)
    requires i + HeaderLength <= |buffer|
    ensures HeaderAt(buffer, i) <==> buffer[i..i + HeaderLength] == Header
  {
    MatchesAtSlice(buffer, i, Header, HeaderLength);
    assert Header[..HeaderLength] == Header;
  }

  /** The signed body length declared by the header at offset i. */
  function DeclaredLength(buffer: bytes, i: nat): int
    requires i + FrameOverhead <= |buffer|
  {
    BytesToInt(buffer[i + HeaderLength..i + FrameOverhead])
  }

  /** The frame scan of Depack from offset i on: stop when fewer than 14
      bytes remain; move one byte on where no header starts; stop at a
      header whose body runs past the end; panic on a negative length;
      otherwise take the body and go on after it. */
  function ScanFrom(buffer: bytes, i: nat): Scan
    requires i <= |buffer|
    decreases |buffer| - i
  {
    if |buffer| < i + FrameOverhead then Scan([], Leftover(buffer[i..]))
    else if !HeaderAt(buffer, i) then ScanFrom(buffer, i + 1)
    else
      var m := DeclaredLength(buffer, i);
      if |buffer| < i + FrameOverhead + m then Scan([], Leftover(buffer[i..]))
      else if m < 0 then Scan([], NegativeLength)
      else
        var rest := ScanFrom(buffer, i + FrameOverhead + m);
        Scan([buffer[i + FrameOverhead..i + FrameOverhead + m]] + rest.bodies, rest.stop)
  }

  /** The messages one parsed body contributes. */
  function Emitted(parsed: Option<Message>): seq<Message>
  {
    if parsed.Some? then [parsed.value] else []
  }

  /** The messages a sequence of bodies yields, in order. */
  function Messages(bodies: seq<bytes>): seq<Message>
  {
    if bodies == [] then []
    else Messages(bodies[..|bodies| - 1]) + Emitted(ParseFrame(bodies[|bodies| - 1]))
  }

  /** What Depack does to a whole buffer. */
  function DepackOf(buffer: bytes): DepackResult
  {
    var scan := ScanFrom(buffer, 0);
    match scan.stop
    case Leftover(rest) => Depacked(Messages(scan.bodies), rest)
    case NegativeLength => Panicked(Messages(scan.bodies))
  }

  /** `bodies` passed over ahead of the scan `s`. */
  function After(bodies: seq<bytes>, s: Scan): Scan
  {
    Scan(bodies + s.bodies, s.stop)
  }

  // The four lemmas below are ScanFrom's defining equations, one per
  // branch, stated so that inductive proofs can take one step at a time
  // without unfolding the whole definition.

  /** The scan stops where fewer than 14 bytes remain or where a header
      declares a body that runs past the end of the buffer. */
  lemma ScanStops(buffer: bytes, i: nat)
    requires i <= |buffer|
    requires |buffer| < i + FrameOverhead
             || (HeaderAt(buffer, i) && |buffer| < i + FrameOverhead + DeclaredLength(buffer, i))
    ensures ScanFrom(buffer, i) == Scan([], Leftover(buffer[i..]))
  {
  }

  /** A header declaring a negative length inside the buffer panics. */
  lemma ScanPanics(buffer: bytes, i: nat)
    requires i + FrameOverhead <= |buffer|
    requires HeaderAt(buffer, i)
    requires DeclaredLength(buffer, i) < 0
    ensures ScanFrom(buffer, i) == Scan([], NegativeLength)
  {
  }

  /** Where no header starts, the scan moves on by one byte. */
  lemma ScanSkipsByte(buffer: bytes, i: nat)
    requires i + FrameOverhead <= |buffer|
    requires !HeaderAt(buffer, i)
    ensures ScanFrom(buffer, i) == ScanFrom(buffer, i + 1)
  {
  }

  /** The scan at a complete frame of declared length m takes its body. */
  lemma ScanTakesFrame(buffer: bytes, i: nat, m: int)
    requires i + FrameOverhead <= |buffer|
    requires HeaderAt(buffer, i)
    requires m == DeclaredLength(buffer, i) && 0 <= m && i + FrameOverhead + m <= |buffer|
    ensures ScanFrom(buffer, i)
            == After([buffer[i + FrameOverhead..i + FrameOverhead + m]], ScanFrom(buffer, i + FrameOverhead + m))
  {
  }

  /** The accumulator form of ScanFrom, in which Depack's loop invariant is
      phrased: `taken` holds the bodies already taken, and each complete
      frame's body is added to it. It has ScanFrom's branches, and
      ScanWithAfter proves it equal to ScanFrom with `taken` in front. */
  function ScanWith(buffer: bytes, i: nat, taken: seq<bytes>): Scan
    requires i <= |buffer|
    decreases |buffer| - i
  {
    if |buffer| < i + FrameOverhead then Scan(taken, Leftover(buffer[i..]))
    else if !HeaderAt(buffer, i) then ScanWith(buffer, i + 1, taken)
    else
      var m := DeclaredLength(buffer, i);
      if |buffer| < i + FrameOverhead + m then Scan(taken, Leftover(buffer[i..]))
      else if m < 0 then Scan(taken, NegativeLength)
      else ScanWith(buffer, i + FrameOverhead + m, taken + [buffer[i + FrameOverhead..i + FrameOverhead + m]])
  }

  /** ScanWith's defining equations, one per branch, for the steps Depack's
      loop takes: stop, panic, move on by one byte, take a complete frame. */
  lemma ScanWithStops(buffer: bytes, i: nat, taken: seq<bytes>)
    requires i <= |buffer|
    requires |buffer| < i + FrameOverhead
             || (HeaderAt(buffer, i) && |buffer| < i + FrameOverhead + DeclaredLength(buffer, i))
    ensures ScanWith(buffer, i, taken) == Scan(taken, Leftover(buffer[i..]))
  {
  }

  lemma ScanWithPanics(buffer: bytes, i: nat, taken: seq<bytes>)
    requires i + FrameOverhead <= |buffer|
    requires HeaderAt(buffer, i)
    requires DeclaredLength(buffer, i) < 0
    ensures ScanWith(buffer, i, taken) == Scan(taken, NegativeLength)
  {
  }

  lemma ScanWithSkipsByte(buffer: bytes, i: nat, taken: seq<bytes>)
    requires i + FrameOverhead <= |buffer|
    requires !HeaderAt(buffer, i)
    ensures ScanWith(buffer, i, taken) == ScanWith(buffer, i + 1, taken)
  {
  }

  lemma ScanWithTakesFrame(buffer: bytes, i: nat, m: int, taken: seq<bytes>)
    requires i + FrameOverhead <= |buffer|
    requires HeaderAt(buffer, i)
    requires m == DeclaredLength(buffer, i) && 0 <= m && i + FrameOverhead + m <= |buffer|
    ensures ScanWith(buffer, i, taken)
            == ScanWith(buffer, i + FrameOverhead + m, taken + [buffer[i + FrameOverhead..i + FrameOverhead + m]])
  {
  }

  /** Carrying the bodies along is the scan from i with them put in front. */
  lemma {:induction false} ScanWithAfter(buffer: bytes, i: nat, taken: seq<bytes>)
    requires i <= |buffer|
    ensures ScanWith(buffer, i, taken) == After(taken, ScanFrom(buffer, i))
    decreases |buffer| - i
  {
    if |buffer| < i + FrameOverhead {
      ScanStops(buffer, i);
      assert taken + [] == taken;
    } else if !HeaderAt(buffer, i) {
      ScanWithSkipsByte(buffer, i, taken);
      ScanSkipsByte(buffer, i);
      ScanWithAfter(buffer, i + 1, taken);
    } else {
      var m := DeclaredLength(buffer, i);
      if |buffer| < i + FrameOverhead + m {
        ScanStops(buffer, i);
        assert taken + [] == taken;
      } else if m < 0 {
        ScanPanics(buffer, i);
        assert taken + [] == taken;
      } else {
        var next := i + FrameOverhead + m;
        var body := buffer[i + FrameOverhead..next];
        var rest := ScanFrom(buffer, next);
        ScanWithTakesFrame(buffer, i, m, taken);
        ScanTakesFrame(buffer, i, m);
        ScanWithAfter(buffer, next, taken + [body]);
        assert taken + [body] + rest.bodies == taken + ([body] + rest.bodies);
      }
    }
  }

  /** One more body adds the messages it parses to. */
  lemma MessagesSnoc(bodies: seq<bytes>, body: bytes)
    ensures Messages(bodies + [body]) == Messages(bodies) + Emitted(ParseFrame(body))
  {
    assert (bodies + [body])[..|bodies|] == bodies;
  }

  /** The steps Depack's loop takes on one complete body: ReadLine (an error
      skips the frame), split the line on spaces, append the content read
      after it, skip when fewer than three parameters result, and send a
      message when there are at least five. `bodies` are the bodies already
      handled, whose messages `emitted` holds. */
  method EmitFrame(data: bytes, emitted: seq<Message>, ghost bodies: seq<bytes>) returns (sent: seq<Message>)
    requires emitted == Messages(bodies)
    ensures sent == Messages(bodies + [data])
  {
    MessagesSnoc(bodies, data);
    var read := ReadLineThenContent(data);
    if read.None? {
      return emitted;
    }
    var params := SplitOn(read.value.line, Space) + [read.value.content];
    if |params| < 3 {
      return emitted;
    }
    if |params| >= 5 {
      return emitted + [Message(params[0], params[1], params[2], params[3], params[4])];
    }
    return emitted;
  }

  /** Depack: scan `buffer`, send every complete frame's message, return the
      leftover. The reader channel is modelled by the emitted sequence. */
  method Depack(buffer: bytes) returns (result: DepackResult)
    ensures result == DepackOf(buffer)
  {
    var length := |buffer|;
    var i := 0;
    var emitted: seq<Message> := [];
    ghost var bodies: seq<bytes> := [];
    assert ScanWith(buffer, 0, []) == ScanFrom(buffer, 0) by {
      ScanWithAfter(buffer, 0, []);
      assert [] + ScanFrom(buffer, 0).bodies == ScanFrom(buffer, 0).bodies;
    }
    while i < length
      invariant 0 <= i <= length
      invariant ScanWith(buffer, i, bodies) == ScanFrom(buffer, 0)
      invariant emitted == Messages(bodies)
      decreases length - i
    {
      if length < i + FrameOverhead {
        ScanWithStops(buffer, i, bodies);
        break;
      }
      if HeaderAt(buffer, i) {
        var messageLength := BytesToInt(buffer[i + HeaderLength..i + FrameOverhead]);
        if length < i + FrameOverhead + messageLength {
          ScanWithStops(buffer, i, bodies);
          break;
        }
        if messageLength < 0 {
          ScanWithPanics(buffer, i, bodies);
          return Panicked(emitted);
        }
        var next := i + FrameOverhead + messageLength;
        var data := buffer[i + FrameOverhead..next];
        assert ScanWith(buffer, next, bodies + [data]) == ScanFrom(buffer, 0) by {
          ScanWithTakesFrame(buffer, i, messageLength, bodies);
        }
        emitted := EmitFrame(data, emitted, bodies);
        bodies := bodies + [data];
        i := next;
      } else {
        ScanWithSkipsByte(buffer, i, bodies);
        i := i + 1;
      }
    }
    if i == length {
      ScanWithStops(buffer, i, bodies);
    }
    assert ScanFrom(buffer, 0) == Scan(bodies, Leftover(buffer[i..]));
    if i >= length {
      return Depacked(emitted, []);
    }
    return Depacked(emitted, buffer[i..]);
  }
}

=== FILE: protocol_props.dfy ===
/** Properties of the wire codec: the length field round trip, how a body
    splits into its fields, what Depack makes of the frames Enpack builds,
    and what it does with garbage, half packets and negative lengths. */
module ProtocolProps {
  import opened Protocol

  // ---------------------------------------------------------------------
  // The length field
  // ---------------------------------------------------------------------

  /** Four bytes are recovered from their big-endian value. */
  lemma BigEndianDigits(b: bytes)
    requires |b| == IntLength
    ensures BigEndian(b) < TwoTo32
    ensures BigEndian(b) / 0x100_0000 == b[0]
    ensures BigEndian(b) / 0x1_0000 % 0x100 == b[1]
    ensures BigEndian(b) / 0x100 % 0x100 == b[2]
    ensures BigEndian(b) % 0x100 == b[3]
  {
    var u := BigEndian(b);
    assert u / 0x100_0000 == b[0];
    assert u / 0x1_0000 == b[0] as int * 0x100 + b[1] as int;
    assert u / 0x100 == b[0] as int * 0x1_0000 + b[1] as int * 0x100 + b[2] as int;
  }

  /** Two 4-byte fields with the same value are the same bytes. */
  lemma BigEndianInjective(a: bytes, b: bytes)
    requires |a| == IntLength && |b| == IntLength
    requires BigEndian(a) == BigEndian(b)
    ensures a == b
  {
    BigEndianDigits(a);
    BigEndianDigits(b);
  }

  /** ToInt32 of a value already inside the int32 range is that value. */
  lemma ToInt32InRange(n: int)
    requires -TwoTo31 <= n < TwoTo31
    ensures ToInt32(n) == n
  {
    if n < 0 {
      assert n % TwoTo32 == n + TwoTo32;
    }
  }

  /** ToInt32 depends only on the value modulo 2^32. */
  lemma ToInt32Mod(n: int)
    ensures ToInt32(n % TwoTo32) == ToInt32(n)
  {
  }

  /** Reading back a written length gives int32(n): n itself for every n in
      the int32 range, the wrapped value otherwise. */
  lemma IntRoundTrip(n: int)
    ensures BytesToInt(IntToBytes(n)) == ToInt32(n)
    ensures -TwoTo31 <= n < TwoTo31 ==> BytesToInt(IntToBytes(n)) == n
  {
    var b := IntToBytes(n);
    assert b[..IntLength] == b;
    ToInt32Mod(n);
    if -TwoTo31 <= n < TwoTo31 {
      ToInt32InRange(n);
    }
  }

  /** Writing back a read length gives the four bytes it was read from. */
  lemma BytesRoundTrip(b: bytes)
    requires |b| >= IntLength
    ensures IntToBytes(BytesToInt(b)) == b[..IntLength]
  {
    var w := b[..IntLength];
    var v := BytesToInt(b);
    BigEndianDigits(w);
    assert v % TwoTo32 == BigEndian(w);
    BigEndianInjective(IntToBytes(v), w);
  }

  // ---------------------------------------------------------------------
  // Splitting the line of a body
  // ---------------------------------------------------------------------

  /** The first separator of `a + [sep] + b` is the one after `a`. */
  lemma IndexOfAfter(a: bytes, sep: byte, b: bytes)
    requires sep !in a
    ensures IndexOf(a + [sep] + b, sep) == Some(|a|)
  {
    var s := a + [sep] + b;
    assert s[|a|] == sep;
    assert s[..|a|] == a;
  }

  /** Splitting at a first separator gives its prefix, then the rest's pieces. */
  lemma SplitOnCons(a: bytes, sep: byte, b: bytes)
    requires sep !in a
    ensures SplitOn(a + [sep] + b, sep) == [a] + SplitOn(b, sep)
  {
    var s := a + [sep] + b;
    IndexOfAfter(a, sep, b);
    assert s[..|a|] == a;
    assert s[|a| + 1..] == b;
  }

  /** A byte string without the separator is one piece. */
  lemma SplitOnNone(s: bytes, sep: byte)
    requires sep !in s
    ensures SplitOn(s, sep) == [s]
  {
  }

  /** Joining the pieces with the separator gives back the string. */
  lemma {:induction false} SplitJoin(s: bytes, sep: byte)
    ensures Join(SplitOn(s, sep), sep) == s
    decreases |s|
  {
    match IndexOf(s, sep)
    case None =>
    case Some(k) =>
      var head := s[..k];
      var tail := s[k + 1..];
      var pieces := SplitOn(s, sep);
      assert pieces == [head] + SplitOn(tail, sep);
      assert pieces[0] == head && pieces[1..] == SplitOn(tail, sep);
      SplitJoin(tail, sep);
      assert Join(pieces, sep) == head + [sep] + tail;
      assert s == head + [sep] + tail;
  }

  /** The pieces of `source SP topic`, both space-free. */
  lemma SplitTwo(source: bytes, topic: bytes)
    requires Space !in source && Space !in topic
    ensures var r := SplitOn(source + [Space] + topic, Space);
      |r| == 2 && r[0] == source && r[1] == topic
  {
    SplitOnNone(topic, Space);
    SplitOnCons(source, Space, topic);
  }

  /** A field line splits into its first three fields, then the pieces of
      its topic. */
  lemma SplitFieldLineTopic(kind: bytes, id: bytes, source: bytes, topic: bytes)
    requires Space !in kind && Space !in id && Space !in source
    ensures SplitOn(FieldLine(kind, id, source, topic), Space)
            == [kind] + ([id] + ([source] + SplitOn(topic, Space)))
  {
    var t := source + [Space] + topic;
    SplitOnCons(source, Space, topic);
    SplitOnCons(id, Space, t);
    SplitOnCons(kind, Space, id + [Space] + t);
  }

  /** The field line of four space-free fields splits into exactly them. */
  lemma SplitFieldLine(kind: bytes, id: bytes, source: bytes, topic: bytes)
    requires Space !in kind && Space !in id && Space !in source && Space !in topic
    ensures var r := SplitOn(FieldLine(kind, id, source, topic), Space);
      |r| == 4 && r[0] == kind && r[1] == id && r[2] == source && r[3] == topic
  {
    SplitFieldLineTopic(kind, id, source, topic);
    SplitOnNone(topic, Space);
  }

  /** A field line whose topic holds one space splits into five pieces. */
  lemma SplitSpacedFieldLine(kind: bytes, id: bytes, source: bytes, t1: bytes, t2: bytes)
    requires Space !in kind && Space !in id && Space !in source && Space !in t1 && Space !in t2
    ensures var r := SplitOn(FieldLine(kind, id, source, t1 + [Space] + t2), Space);
      |r| == 5 && r[0] == kind && r[1] == id && r[2] == source && r[3] == t1 && r[4] == t2
  {
    SplitFieldLineTopic(kind, id, source, t1 + [Space] + t2);
    SplitTwo(t1, t2);
  }

  /** bytes.Split yields one more piece than there are separators. */
  lemma {:induction false} SplitOnCount(s: bytes, sep: byte)
    ensures |SplitOn(s, sep)| == multiset(s)[sep] + 1
    decreases |s|
  {
    match IndexOf(s, sep)
    case None =>
    case Some(k) =>
      var tail := s[k + 1..];
      assert s == s[..k] + [sep] + tail;
      assert multiset(s) == multiset(s[..k]) + multiset{sep} + multiset(tail);
      SplitOnCount(tail, sep);
  }

  // ---------------------------------------------------------------------
  // Reading one body
  // ---------------------------------------------------------------------

  /** A line that ReadLine returns unchanged: no newline inside, no
      carriage return at its end. */
  predicate PlainLine(line: bytes)
  {
    NewLine !in line && (line == [] || line[|line| - 1] != CarriageReturn)
  }

  /** ReadLine finding a newline in the reader's first window of the body. */
  lemma ReadLineInWindow(body: bytes, window: bytes, p: nat)
    requires body != []
    requires window == if |body| < ReaderSize then body else body[..ReaderSize]
    requires IndexOf(window, NewLine) == Some(p)
    ensures ReadLineThenContent(body)
            == Some(LineRead(DropCarriageReturn(window[..p]),
                             if window[p + 1..] != [] then window[p + 1..] else body[|window|..]))
  {
  }

  /** In a body that fits the reader's buffer, the line ends at the first
      newline and the content is everything after it. */
  lemma ReadLineAt(body: bytes, p: nat)
    requires 0 < |body| <= ReaderSize
    requires IndexOf(body, NewLine) == Some(p)
    ensures ReadLineThenContent(body) == Some(LineRead(DropCarriageReturn(body[..p]), body[p + 1..]))
  {
    assert (if |body| < ReaderSize then body else body[..ReaderSize]) == body;
    ReadLineInWindow(body, body, p);
    assert body[|body|..] == [];
  }

  /** A body that fits the reader's buffer reads back as its line and
      the content after the newline. */
  lemma ReadLineOfBody(line: bytes, content: bytes)
    requires PlainLine(line)
    requires |line| + 1 + |content| <= ReaderSize
    ensures ReadLineThenContent(line + [NewLine] + content) == Some(LineRead(line, content))
  {
    var body := line + [NewLine] + content;
    IndexOfAfter(line, NewLine, content);
    ReadLineAt(body, |line|);
    assert body[..|line|] == line && body[|line| + 1..] == content;
  }

  /** The slices of `a + [x] + b` cut after k bytes of b. */
  lemma SpliceSlices(a: bytes, x: byte, b: bytes, k: nat)
    requires k <= |b|
    ensures var s := a + [x] + b;
      && s[..|a| + 1 + k] == a + [x] + b[..k]
      && (a + [x] + b[..k])[..|a|] == a
      && (a + [x] + b[..k])[|a| + 1..] == b[..k] == s[|a| + 1..|a| + 1 + k]
  {
  }

  /** In a body longer than the reader's buffer whose line ends inside the
      first window, the Read after ReadLine returns only what is left of
      that window: the content is cut at byte 4096 of the body. */
  lemma ContentCutAtWindow(line: bytes, content: bytes)
    requires NewLine !in line
    requires |line| + 1 < ReaderSize < |line| + 1 + |content|
    ensures var body := line + [NewLine] + content;
      ReadLineThenContent(body)
      == Some(LineRead(DropCarriageReturn(line), body[|line| + 1..ReaderSize]))
  {
    var body := line + [NewLine] + content;
    var k := ReaderSize - |line| - 1;
    var pre := content[..k];
    SpliceSlices(line, NewLine, content, k);
    IndexOfAfter(line, NewLine, pre);
    ReadLineInWindow(body, line + [NewLine] + pre, |line|);
  }

  /** When the newline is the last byte of the reader's first window,
      ReadLine leaves nothing buffered, and the Read after it fetches the
      whole content from the body directly. */
  lemma ContentAfterFullWindow(line: bytes, content: bytes)
    requires NewLine !in line
    requires |line| + 1 == ReaderSize && content != []
    ensures ReadLineThenContent(line + [NewLine] + content)
            == Some(LineRead(DropCarriageReturn(line), content))
  {
    var body := line + [NewLine] + content;
    SpliceSlices(line, NewLine, content, 0);
    assert content[..0] == [];
    IndexOfAfter(line, NewLine, []);
    ReadLineInWindow(body, line + [NewLine] + [], |line|);
    assert body[ReaderSize..] == content;
  }

  /** A field line is plain when its fields hold no newline and the topic
      does not end in a carriage return. */
  lemma FieldLinePlain(kind: bytes, id: bytes, source: bytes, topic: bytes)
    requires NewLine !in kind && NewLine !in id && NewLine !in source && PlainLine(topic)
    ensures PlainLine(FieldLine(kind, id, source, topic))
  {
  }

  /** A body whose line splits into at least four pieces gives the
      message of the first four, with the fifth piece as its data, or the
      content when there is no fifth piece. */
  lemma ParseOfLine(body: bytes, line: bytes, content: bytes)
    requires ReadLineThenContent(body) == Some(LineRead(line, content))
    requires |SplitOn(line, Space)| >= 4
    ensures var r := SplitOn(line, Space);
      ParseFrame(body) == Some(Message(r[0], r[1], r[2], r[3], if |r| >= 5 then r[4] else content))
  {
  }

  /** The fields a body is split into by a space-free, newline-free header
      line come back as the message, content as its data. */
  lemma ParseBodyRoundTrip(kind: bytes, id: bytes, source: bytes, topic: bytes, content: bytes)
    requires Space !in kind && Space !in id && Space !in source && Space !in topic
    requires NewLine !in kind && NewLine !in id && NewLine !in source && PlainLine(topic)
    requires |Body(kind, id, source, topic, content)| <= ReaderSize
    ensures ParseFrame(Body(kind, id, source, topic, content)) == Some(Message(kind, id, source, topic, content))
  {
    var line := FieldLine(kind, id, source, topic);
    assert ReadLineThenContent(Body(kind, id, source, topic, content)) == Some(LineRead(line, content)) by {
      FieldLinePlain(kind, id, source, topic);
      ReadLineOfBody(line, content);
    }
    SplitFieldLine(kind, id, source, topic);
    ParseOfLine(Body(kind, id, source, topic, content), line, content);
  }

  /** A topic holding a space shifts the fields: the part after the space
      becomes the message's data and the content is dropped. */
  lemma ParseSpacedTopic(kind: bytes, id: bytes, source: bytes, t1: bytes, t2: bytes, content: bytes)
    requires Space !in kind && Space !in id && Space !in source && Space !in t1 && Space !in t2
    requires NewLine !in kind && NewLine !in id && NewLine !in source && NewLine !in t1 && PlainLine(t2)
    requires |Body(kind, id, source, t1 + [Space] + t2, content)| <= ReaderSize
    ensures ParseFrame(Body(kind, id, source, t1 + [Space] + t2, content)) == Some(Message(kind, id, source, t1, t2))
  {
    var topic := t1 + [Space] + t2;
    var line := FieldLine(kind, id, source, topic);
    assert ReadLineThenContent(Body(kind, id, source, topic, content)) == Some(LineRead(line, content)) by {
      assert PlainLine(topic);
      FieldLinePlain(kind, id, source, topic);
      ReadLineOfBody(line, content);
    }
    SplitSpacedFieldLine(kind, id, source, t1, t2);
    ParseOfLine(Body(kind, id, source, topic, content), line, content);
  }

  /** A body yields a message only when its line holds at least three spaces. */
  lemma ParseNeedsThreeSpaces(body: bytes)
    requires ParseFrame(body).Some?
    ensures multiset(ReadLineThenContent(body).value.line)[Space] >= 3
  {
    SplitOnCount(ReadLineThenContent(body).value.line, Space);
  }
}

=== FILE: socket.dfy ===
/** The TCP client of the socket package: its closed/manual-close flags,
    its connection and close signal, the queue of decoded messages waiting
    to be read and the queue of frames waiting to be written.

    The dialler is an oracle: `Connect` is told whether the dial succeeds,
    `Close` how many dials fail before one succeeds. The two goroutines
    `Connect` starts are reduced to their effect on the queues: `Receive`
    is one turn of the read loop, `TakeOutbound` one turn of the send loop. */
module Socket {
  import opened Protocol

  /** Capacity of both channels the client is created with. */
  const QueueCapacity := 1024

  /** The push kinds agreed with the front end. */
  const PublishKey: bytes := Ascii("publish")
  const OfflineTopicByUserIdKey: bytes := Ascii("offline_topic_by_userid")
  const OfflineTopicKey: bytes := Ascii("offline_topic")
  const OfflineUserKey: bytes := Ascii("offline_user")

  /** The message type Read passes over: the ASCII bytes of "heartbeat". */
  const HeartbeatKind: bytes := [0x68, 0x65, 0x61, 0x72, 0x74, 0x62, 0x65, 0x61, 0x74]

  lemma HeartbeatIsAscii()
    ensures HeartbeatKind == Ascii("heartbeat")
  {
    var h := Ascii("heartbeat");
    assert h[0] == 0x68 && h[1] == 0x65 && h[2] == 0x61 && h[3] == 0x72 && h[4] == 0x74;
    assert h[5] == 0x62 && h[6] == 0x65 && h[7] == 0x61 && h[8] == 0x74;
  }

  /** A connection or close signal installed by the `generation`-th
      successful Connect, and whether it has been closed since. */
  datatype Handle = Handle(generation: nat, closed: bool)

  /** How a call to Close ended. `NilConnPanic`: the client was never
      connected, so closing its nil connection panics after the closed flag
      is set. `Reconnected(waits)`: the seconds slept between failed dials. */
  datatype CloseOutcome = AlreadyClosed | NilConnPanic | StayedClosed | Reconnected(waits: seq<nat>)

  /** What Read returns. `Waiting` stands for the call that blocks on an
      empty queue, after the heartbeats ahead of it were consumed. */
  datatype ReadOutcome = Received(message: Message) | ReadFailed(error: Error) | Waiting

  /** The queue after the heartbeats at its head are consumed. */
  function SkipHeartbeats(queue: seq<Message>): (rest: seq<Message>)
    ensures |rest| <= |queue| && rest == queue[|queue| - |rest|..]
    ensures rest != [] ==> rest[0].kind != HeartbeatKind
    ensures forall k :: 0 <= k < |queue| - |rest| ==> queue[k].kind == HeartbeatKind
  {
    if queue == [] || queue[0].kind != HeartbeatKind then queue
    else SkipHeartbeats(queue[1..])
  }

  /** Every wait between the reconnect attempts of Close is one second. */
  function FixedWaits(failures: nat): (waits: seq<nat>)
    ensures |waits| == failures && forall k :: 0 <= k < failures ==> waits[k] == 1
  {
    seq(failures, _ => 1)
  }

  class TcpClient {
    const address: bytes
    var isClose: bool
    var manualClose: bool
    /** The connection and close signal; None until the first Connect. */
    var conn: Option<Handle>
    var closeSignal: Option<Handle>
    /** Number of successful dials so far. */
    var generation: nat
    /** The readIn channel: decoded messages waiting for Read. */
    var readIn: seq<Message>
    /** The sendOut channel: frames waiting for the send loop. */
    var sendOut: seq<bytes>
    /** The read loop's half packet carried into its next read. */
    var overflow: bytes
    /** Whether the read loop of the current connection is still running. */
    var reading: bool

    /** Queues within capacity; connection and close signal installed
        together by the latest dial; an open client's close signal not yet
        closed, so that Close never closes a channel twice. */
    ghost predicate Valid()
      reads this
    {
      && |readIn| <= QueueCapacity && |sendOut| <= QueueCapacity
      && (conn.Some? <==> closeSignal.Some?)
      && (conn.Some? ==> conn.value.generation == closeSignal.value.generation == generation)
      && (!isClose && closeSignal.Some? ==> !closeSignal.value.closed && !conn.value.closed)
    }

    /** NewClient: open, not connected, both queues empty. */
    constructor (address: bytes)
      ensures Valid()
      ensures this.address == address
      ensures !isClose && !manualClose && conn.None? && closeSignal.None? && generation == 0
      ensures readIn == [] && sendOut == [] && overflow == [] && !reading
    {
      this.address := address;
      isClose := false;
      manualClose := false;
      conn := None;
      closeSignal := None;
      generation := 0;
      readIn := [];
      sendOut := [];
      overflow := [];
      reading := false;
    }

    /** Connect: on a failed dial, the dial error and nothing changed; on
        success the client is open with a fresh connection and close
        signal and a read loop starting with no half packet. The previous
        connection, if any, is left as it was. */
    method Connect(dialOk: bool) returns (err: Option<Error>)
      requires Valid()
      modifies this
      ensures Valid()
      ensures !dialOk ==> err == Some(DialFailed) && unchanged(this)
      ensures dialOk ==>
        && err.None? && !isClose && generation == old(generation) + 1
        && conn == Some(Handle(generation, false)) && closeSignal == Some(Handle(generation, false))
        && overflow == [] && reading
        && manualClose == old(manualClose) && readIn == old(readIn) && sendOut == old(sendOut)
    {
      if !dialOk {
        return Some(DialFailed);
      }
      isClose := false;
      generation := generation + 1;
      conn := Some(Handle(generation, false));
      closeSignal := Some(Handle(generation, false));
      overflow := [];
      reading := true;
      return None;
    }

    /** Close: a no-op on a closed client. Otherwise it marks the client
        closed and closes the connection and the close signal; unless the
        client was shut down, it then dials again after every failure,
        sleeping one second each time, until a dial succeeds. The
        `dialFailures` failed dials come before the one that succeeds. */
    method Close(dialFailures: nat) returns (outcome: CloseOutcome)
      requires Valid()
      modifies this
      ensures Valid()
      ensures old(isClose) ==> outcome == AlreadyClosed && unchanged(this)
      ensures !old(isClose) && old(conn).None? ==>
        outcome == NilConnPanic && isClose && conn.None? && closeSignal.None?
      ensures !old(isClose) && old(conn).Some? && old(manualClose) ==>
        && outcome == StayedClosed && isClose
        && conn == Some(Handle(old(generation), true)) && closeSignal == Some(Handle(old(generation), true))
      ensures !old(isClose) && old(conn).Some? && !old(manualClose) ==>
        && outcome == Reconnected(FixedWaits(dialFailures))
        && !isClose && generation == old(generation) + 1
        && conn == Some(Handle(generation, false)) && closeSignal == Some(Handle(generation, false))
        && overflow == [] && reading
      ensures manualClose == old(manualClose) && readIn == old(readIn) && sendOut == old(sendOut)
      ensures old(isClose) || old(conn).None? || old(manualClose) ==>
        overflow == old(overflow) && reading == old(reading) && generation == old(generation)
    {
      if isClose {
        return AlreadyClosed;
      }
      isClose := true;
      if conn.None? {
        return NilConnPanic;
      }
      conn := Some(conn.value.(closed := true));
      closeSignal := Some(closeSignal.value.(closed := true));
      var failures := 0;
      while true
        invariant Valid() && isClose && failures <= dialFailures
        invariant conn == Some(Handle(old(generation), true)) && closeSignal == Some(Handle(old(generation), true))
        invariant generation == old(generation) && overflow == old(overflow) && reading == old(reading)
        invariant manualClose == old(manualClose) && readIn == old(readIn) && sendOut == old(sendOut)
        decreases dialFailures - failures
      {
        if manualClose {
          return StayedClosed;
        }
        var err := Connect(failures == dialFailures);
        if err.None? {
          return Reconnected(FixedWaits(failures));
        }
        failures := failures + 1;
      }
    }

    /** Shutdown: marks the client closed for good and closes the
        connection if there is one; the close signal is left as it is. */
    method Shutdown()
      requires Valid()
      modifies this
      ensures Valid()
      ensures manualClose && isClose
      ensures conn == (if old(conn).Some? then Some(old(conn).value.(closed := true)) else None)
      ensures closeSignal == old(closeSignal) && generation == old(generation)
      ensures readIn == old(readIn) && sendOut == old(sendOut)
      ensures overflow == old(overflow) && reading == old(reading)
    {
      manualClose := true;
      isClose := true;
      if conn.Some? {
        conn := Some(conn.value.(closed := true));
      }
    }

    /** Read: ErrorClose on a closed client; otherwise the first queued
        message that is not a heartbeat, every heartbeat ahead of it
        consumed. */
    method Read() returns (r: ReadOutcome)
      requires Valid()
      modifies this
      ensures Valid()
      ensures old(isClose) ==> r == ReadFailed(Closed) && readIn == old(readIn)
      ensures !old(isClose) ==>
        var rest := SkipHeartbeats(old(readIn));
        if rest == [] then r == Waiting && readIn == []
        else r == Received(rest[0]) && readIn == rest[1..]
      ensures isClose == old(isClose) && manualClose == old(manualClose)
      ensures conn == old(conn) && closeSignal == old(closeSignal) && generation == old(generation)
      ensures sendOut == old(sendOut) && overflow == old(overflow) && reading == old(reading)
    {
      if isClose {
        return ReadFailed(Closed);
      }
      var queue := readIn;
      while queue != []
        invariant SkipHeartbeats(queue) == SkipHeartbeats(old(readIn))
        decreases |queue|
      {
        var message := queue[0];
        queue := queue[1..];
        if message.kind != HeartbeatKind {
          readIn := queue;
          return Received(message);
        }
      }
      readIn := [];
      return Waiting;
    }

    /** send: ErrorClose on a closed client; the frame queued when the
        queue has room; ErrorBlock when it stays full until the timer fires. */
    method Send(message: bytes) returns (err: Option<Error>)
      requires Valid()
      modifies this
      ensures Valid()
      ensures old(isClose) ==> err == Some(Closed) && sendOut == old(sendOut)
      ensures !old(isClose) && |old(sendOut)| < QueueCapacity ==> err.None? && sendOut == old(sendOut) + [message]
      ensures !old(isClose) && |old(sendOut)| >= QueueCapacity ==> err == Some(Blocked) && sendOut == old(sendOut)
      ensures isClose == old(isClose) && manualClose == old(manualClose)
      ensures conn == old(conn) && closeSignal == old(closeSignal) && generation == old(generation)
      ensures readIn == old(readIn) && overflow == old(overflow) && reading == old(reading)
    {
      if isClose {
        return Some(Closed);
      }
      if |sendOut| < QueueCapacity {
        sendOut := sendOut + [message];
        return None;
      }
      return Some(Blocked);
    }

    /** Publish: Enpack's error with nothing queued, or the publish frame
        of the arguments handed to send. */
    method Publish(messageId: bytes, source: bytes, topic: bytes, data: Option<bytes>) returns (err: Option<Error>)
      requires Valid()
      modifies this
      ensures Valid()
      ensures var frame := Enpack(PublishKey, messageId, source, topic, data);
        && (frame.Err? ==> err == Some(frame.error) && sendOut == old(sendOut))
        && (frame.Ok? && old(isClose) ==> err == Some(Closed) && sendOut == old(sendOut))
        && (frame.Ok? && !old(isClose) && |old(sendOut)| < QueueCapacity ==>
              err.None? && sendOut == old(sendOut) + [frame.value])
        && (frame.Ok? && !old(isClose) && |old(sendOut)| >= QueueCapacity ==>
              err == Some(Blocked) && sendOut == old(sendOut))
      ensures isClose == old(isClose) && manualClose == old(manualClose)
      ensures conn == old(conn) && closeSignal == old(closeSignal) && generation == old(generation)
      ensures readIn == old(readIn) && overflow == old(overflow) && reading == old(reading)
    {
      var frame := Enpack(PublishKey, messageId, source, topic, data);
      if frame.Err? {
        return Some(frame.error);
      }
      err := Send(frame.value);
    }

    /** One turn of the read loop: the bytes read are appended to the half
        packet, Depack sends the messages of the complete frames to readIn
        and leaves the new half packet. A negative length panics Depack;
        the loop recovers and stops, keeping the messages already sent.
        A read on a closed connection fails and ends the loop instead, so a
        turn needs the connection open. */
    method Receive(chunk: bytes)
      requires Valid() && reading && conn.Some? && !conn.value.closed
      requires |readIn| + |DepackOf(overflow + chunk).emitted| <= QueueCapacity
      modifies this
      ensures Valid()
      ensures var d := DepackOf(old(overflow) + chunk);
        && readIn == old(readIn) + d.emitted
        && (d.Depacked? ==> overflow == d.leftover && reading)
        && (d.Panicked? ==> overflow == old(overflow) && !reading)
      ensures isClose == old(isClose) && manualClose == old(manualClose)
      ensures conn == old(conn) && closeSignal == old(closeSignal) && generation == old(generation)
      ensures sendOut == old(sendOut)
    {
      var d := Depack(overflow + chunk);
      readIn := readIn + d.emitted;
      if d.Depacked? {
        overflow := d.leftover;
      } else {
        reading := false;
      }
    }

    /** One turn of the send loop: the oldest queued frame is taken to be
        written to the connection. The loop exists only once a dial has
        succeeded; before that, sent frames stay queued. */
    method TakeOutbound() returns (frame: bytes)
      requires Valid() && conn.Some? && sendOut != []
      modifies this
      ensures frame == old(sendOut)[0] && sendOut == old(sendOut)[1..]
      ensures Valid()
      ensures isClose == old(isClose) && manualClose == old(manualClose)
      ensures conn == old(conn) && closeSignal == old(closeSignal) && generation == old(generation)
      ensures readIn == old(readIn) && overflow == old(overflow) && reading == old(reading)
    {
      frame := sendOut[0];
      sendOut := sendOut[1..];
    }
  }

  /** After Shutdown, Close does nothing: a client closed by hand is never
      reconnected. */
  method ShutdownThenClose(client: TcpClient, dialFailures: nat) returns (outcome: CloseOutcome)
    requires client.Valid()
    modifies client
    ensures client.Valid() && client.isClose && client.manualClose
    ensures outcome == AlreadyClosed && client.generation == old(client.generation)
  {
    client.Shutdown();
    outcome := client.Close(dialFailures);
  }
}
